=== FILE: README.md ===
# Terraform MCP server tool renderers, modelled in Dafny

This project models the pure logic inside four tool handlers of the Terraform MCP
server (`pkg/tools/tfe`). The logic renders and validates data around network calls to
Terraform Cloud/Enterprise. The project then proves properties of that model.

- **Plan diff engine** (`get_plan_details.go`). It covers:
  - the classification of a resource change's action list into one verb;
  - the header symbol and reason-sentence tables;
  - the per-plan tally;
  - the bounded one-line display of a JSON value;
  - the key-wise attribute diff with its sorted key merge and insertion sort;
  - the create/delete dumps, the 4000-character cap and the per-resource entry;
  - the "Resource Changes" section.
- **Log section**, shared by `buildPlanMetadataResponse` and `get_apply_details.go`. It covers status gating, failure notes, keeping the last 50000 characters, the truncation notice and the closing fence.
- **Current state display** (`get_current_state.go`). It covers:
  - `formatOutputValue`;
  - the `include_full_state` flag;
  - hiding sensitive outputs;
  - the outputs fallback;
  - the `(root)` module cell;
  - the full-state block.
- **Workspace options** (`create_workspace.go`). This is the path from tool arguments to either an error or the create request. It covers execution-mode validation, tag parsing, the VCS token check and the fields set only when non-empty.

Layout: one module per file.

| Module | Contents |
|---|---|
| `Wrappers` | Option and Result |
| `Text` | ASCII versions of Go's `strings` helpers and `%d` |
| `StringOrder` | Go's string `<`, sorting and canonical key order |
| `Values` | the JSON value tree, its encoding and `formatValue` |
| `Encoding` | the proof that the encoding is injective, so `valuesEqual` is equality |
| `Actions` | the action and reason tables |
| `AttributeDiff` | the attribute diff engine |
| `Plan` | the tally, summary line, resource entries and changes section |
| `LogSection` | the log section |
| `Arguments` | mcp-go's `RequireString` and `GetString` |
| `CurrentState` | the current state display |
| `CreateWorkspace` | workspace options |

Go's map iteration order is unspecified. Code that walks a map is a `method` that picks keys with `:|`, and it returns the order it used as a ghost out-parameter. Its contract holds for every order. The functions `SortedKeys` and `WriteDiff` are the order-independent reference definitions the methods are proved against.

## Model

| member | source | states |
|---|---|---|
| StringOrder.LessIsStrictTotalOrder | pkg/tools/tfe/get_plan_details.go:469 | Go's byte-wise string `<` is irreflexive, transitive and total, so sorting by it is well defined |
| StringOrder.SortStrings | pkg/tools/tfe/get_plan_details.go:467-473 | the insertion sort leaves the strings in non-decreasing order and is a permutation of its input |
| StringOrder.SortedKeysCharacterization | pkg/tools/tfe/get_plan_details.go:461-463 | any strictly increasing list of exactly the keys of a set is the canonical sorted key list, so the sorted merge is independent of map iteration order |
| AttributeDiff.MergeKeys | pkg/tools/tfe/get_plan_details.go:446-464 | the merged key list is strictly increasing (no duplicates), holds exactly the keys of either map, and equals the sorted key list of the union whatever order the maps were walked in |
| AttributeDiff.DiffEntriesSpec | pkg/tools/tfe/get_plan_details.go:422-443 | the diff reports exactly the keys present on one side only or with unequal values on both, in strictly increasing key order, each as added, removed or changed; a shared key with equal encodings never appears |
| AttributeDiff.WriteMapValues | pkg/tools/tfe/get_plan_details.go:413-419 | one `prefix key = value` line per key of the map, each key exactly once, in the order the map was walked; the text is empty exactly when the map is, and otherwise starts with the prefix |
| Encoding.ValuesEqualIsEquality | pkg/tools/tfe/get_plan_details.go:531-540 | comparing the canonical encodings is the deep equality the comment promises: two values compare equal exactly when they are the same value |
| AttributeDiff.ReportedIffValuesDiffer | pkg/tools/tfe/get_plan_details.go:429-440 | a key gets a diff line exactly when it is on one side only or its two values differ |
| AttributeDiff.DiffEmptyIffEqual | pkg/tools/tfe/get_plan_details.go:422-443 | the key-wise diff of two attribute maps is empty exactly when the maps are equal |
| AttributeDiff.DumpIsDiffAgainstEmpty | pkg/tools/tfe/get_plan_details.go:382-391 | the `+ ` dump of a created resource and the `- ` dump of a deleted one, taken in sorted order, are the key-wise diff from or to an empty map |
| AttributeDiff.CapDiffSpec | pkg/tools/tfe/get_plan_details.go:403-407 | a body of at most 4000 characters is unchanged; a longer one becomes exactly its first 4000 characters followed by the truncation marker |
| AttributeDiff.BuildAttributeDiff | pkg/tools/tfe/get_plan_details.go:378-410 | create dumps only `after` with `+ `, delete only `before` with `- `, update and both replacements diff when both sides are maps, anything else is empty; the result never exceeds 4000 characters plus the marker |
| Values.QuoteRoundTrip | pkg/tools/tfe/get_plan_details.go:484-486 | a quoted string literal reads back as the original text |
| Values.FormatStringShowsText | pkg/tools/tfe/get_plan_details.go:482-486 | a string of at most 200 characters is shown whole between double quotes; a longer one shows exactly its first 200 characters between double quotes, followed by `... (truncated)`; the display is at most 417 characters, and at most 217 when the text holds no `"` or `\` |
| Values.FormatEmptyCollections | pkg/tools/tfe/get_plan_details.go:494-497 | an empty list shows as `[]` and an empty map as `{}` at every depth |
| Values.FormatDeepCollapse | pkg/tools/tfe/get_plan_details.go:498-500 | beyond depth 2 a non-empty list or map shows only its size, so two collections of the same size display alike whatever they hold |
| Values.FormatCollectionBounded | pkg/tools/tfe/get_plan_details.go:501-525 | a collection is shown by its size or in at most 202 characters; at depth 2 or less a non-empty map is shown as its JSON encoding exactly when that fits in 200 characters and by its key count otherwise, and a non-empty list is shown as its items' displays one level deeper, joined with `, ` in brackets, exactly when that join fits in 200 characters and by its item count otherwise |
| Values.FormatScalarIgnoresDepth | pkg/tools/tfe/get_plan_details.go:477-493 | null, booleans, integers and strings display the same way at every depth |
| Actions.SummarizeSingle | pkg/tools/tfe/get_plan_details.go:283-297 | a one-element action list summarises to that element, whether it is a known tag or not |
| Actions.SummarizeReplacements | pkg/tools/tfe/get_plan_details.go:298-305 | the two replacement orders give two different verbs, each naming its order |
| Actions.SummarizeOther | pkg/tools/tfe/get_plan_details.go:306 | every other list is its tags joined with `, `, and the empty list gives the empty string |
| Actions.SummaryIdentifiesSingleTag | pkg/tools/tfe/get_plan_details.go:283-307 | a verb without `, ` is produced by exactly one action list, the list holding just that verb |
| Actions.ActionSymbolTable | pkg/tools/tfe/get_plan_details.go:310-325 | create, delete, update and read get `+`, `-`, `~` and `<=`; `-/+` goes exactly to the two replacements; the blank symbol goes exactly to the summaries the table does not know (including `no-op`); no other symbol occurs |
| Actions.FormatActionReasonPassThrough | pkg/tools/tfe/get_plan_details.go:350-375 | a reason is returned unchanged exactly when it is not one of the ten known codes |
| Plan.CountActions | pkg/tools/tfe/get_plan_details.go:264-280 | each counter is the number of changes whose summary lands in its bucket (reads count as no-ops), and the counters plus the uncounted changes add up to the number of changes |
| Plan.BucketOfSingleTags | pkg/tools/tfe/get_plan_details.go:266-277 | a change is counted as added, updated or deleted exactly when its action list is that single tag, and as a no-op exactly when it is `[no-op]` or `[read]` |
| Plan.ActualChangesAndNoOps | pkg/tools/tfe/get_plan_details.go:229-246 | the listed changes and the "unchanged, not shown" count partition the plan: together they number exactly the changes |
| Plan.JoinedTagsLookLikeReplace | pkg/tools/tfe/get_plan_details.go:273-318 | the two-tag list `["replace (delete", "create)"]` summarises to the replacement verb, exactly as the one-tag list `["replace (delete, create)"]` does, and is counted and marked as a replacement |
| Plan.SummaryLineMentionsReplaces | pkg/tools/tfe/get_plan_details.go:211-215 | the summary line ends with the replacement clause exactly when something is replaced |
| Plan.WriteResourceChange | pkg/tools/tfe/get_plan_details.go:328-347 | an entry is its header, the reason line when a reason is given, and the attribute diff of its summarised action, fenced when non-empty; it always starts with the header and reason and ends with a newline |
| Plan.ResourceChangesSection | pkg/tools/tfe/get_plan_details.go:227-249 | every change that is neither a no-op nor a read gets one rendered entry, in plan order, under a heading with their number; the unchanged line follows with the no-op count; an empty plan says no changes are planned |
| LogSection.TailLog | pkg/tools/tfe/get_apply_details.go:123-129 | the shown log is a suffix of the log, of length min(length, 50000) |
| Text.EnsureNewline | pkg/tools/tfe/get_apply_details.go:137-139 | the fenced text always ends with a newline, and one is added exactly when it was missing |
| LogSection.RenderLogBounded | pkg/tools/tfe/get_apply_details.go:122-141 | however long the log, the rendered block has a fixed upper size |
| LogSection.RenderLogWhole | pkg/tools/tfe/get_apply_details.go:130-140 | a log that fits and ends its last line is shown verbatim between the fences, without a notice |
| LogSection.RenderLogTruncated | pkg/tools/tfe/get_apply_details.go:123-135 | a log that does not fit is announced as truncated, and its last 50000 characters follow the opening fence |
| LogSection.RenderLogNoticeIffTruncated | pkg/tools/tfe/get_apply_details.go:131-134 | the truncation notice appears exactly when the log was longer than 50000 characters |
| LogSection.ApplyLogSectionCases | pkg/tools/tfe/get_apply_details.go:95-141 | a waiting apply gets its waiting note whatever the logs would be; otherwise each fetch failure has its own note, an empty log gets the no-logs note and a non-empty log is rendered under "Apply Logs"; the section is never empty |
| LogSection.PlanLogSectionSilent | pkg/tools/tfe/get_plan_details.go:142-188 | the plan summary says nothing about logs exactly when the plan is past waiting and either the read failed, or nothing came back for a plan that did not error |
| LogSection.PlanLogSectionCases | pkg/tools/tfe/get_plan_details.go:142-173 | a waiting plan gets its waiting note whatever the logs would be; a non-empty log is always rendered once the plan is past waiting; an errored plan whose logs cannot be fetched, or are empty, gets the matching note |
| Arguments.RequireString | pkg/tools/tfe/create_workspace.go:76-86 | a required argument succeeds exactly when it is present and a string, giving its text; it reports "missing" exactly when absent |
| Arguments.GetStringAgreesWithRequire | pkg/tools/tfe/create_workspace.go:88-97 | an optional argument reads what the required read would, and the default in place of any failure |
| CurrentState.OutputScalarsMatchDiff | pkg/tools/tfe/get_current_state.go:183-196 | null, integers and booleans are shown as in a plan diff, wrapped in single backticks |
| CurrentState.OutputStringVerbatim | pkg/tools/tfe/get_current_state.go:188-189 | a string output is shown in full between backticks, neither quoted nor cut |
| CurrentState.OutputCollectionFenced | pkg/tools/tfe/get_current_state.go:197-203 | a list or map output is its JSON encoding inside a fenced `json` block |
| CurrentState.IncludeFullStateIff | pkg/tools/tfe/get_current_state.go:59 | the full state is requested exactly when the argument is a string holding `true` in any capitalisation with only white space around it; a missing argument never requests it |
| CurrentState.SecretsNeverShown | pkg/tools/tfe/get_current_state.go:126-133 | changing only the values of sensitive outputs leaves the outputs listing unchanged |
| CurrentState.PublicValueShown | pkg/tools/tfe/get_current_state.go:129-131 | a non-sensitive output's line ends with its displayed value |
| CurrentState.OutputsSectionSource | pkg/tools/tfe/get_current_state.go:123-150 | the separate listing is used only when the state version carried no outputs, and "No outputs defined." is written exactly when neither source has any |
| CurrentState.ModuleCell | pkg/tools/tfe/get_current_state.go:115-118 | the module cell is never empty, and it is the module address itself exactly when that address is non-empty |
| CurrentState.ResourceRowsOnePerResource | pkg/tools/tfe/get_current_state.go:110-121 | the resource table has one line per resource, apart from line breaks inside the resources' own fields |
| CurrentState.FullStateSectionGated | pkg/tools/tfe/get_current_state.go:152-176 | nothing is shown unless the full state was requested and a download URL exists; a shown state closes its fence on a line of its own |
| CreateWorkspace.ExecutionModeAccepted | pkg/tools/tfe/create_workspace.go:101-111 | exactly the three mode names in any capitalisation and the empty string are accepted; empty means remote |
| CreateWorkspace.ExecutionModeRoundTrip | pkg/tools/tfe/create_workspace.go:102-108 | each mode's own name, in any capitalisation, is read back as that mode |
| CreateWorkspace.ParseTagsWellFormed | pkg/tools/tfe/create_workspace.go:113-123 | every tag is non-empty, has no white space at either end and contains no comma, and there are at most one more tags than commas |
| CreateWorkspace.ParseTagsRoundTrip | pkg/tools/tfe/create_workspace.go:113-123 | well-formed tags written as a comma-separated list are read back as the same tags in the same order |
| CreateWorkspace.SetIfNonEmpty | pkg/tools/tfe/create_workspace.go:137-148 | an optional field is set exactly when its argument is non-empty, and then holds the argument |
| CreateWorkspace.BuildCreateRequestErrors | pkg/tools/tfe/create_workspace.go:76-176 | errors come in the source's order: missing organisation, missing workspace name, bad execution mode, no client, VCS identifier without token; each is reported exactly when all earlier checks pass and it fails |
| CreateWorkspace.BuildCreateRequestFields | pkg/tools/tfe/create_workspace.go:80-176 | a successful request has the trimmed organisation and name, auto-apply only for untrimmed `true` in any capitalisation, the parsed tags, each optional field set exactly when non-empty, the execution mode set exactly when given, a VCS repository exactly when an identifier is given, carrying the `vcs_repo_oauth_token_id` argument as its (non-empty) token, and the server's own source name `terraform-mcp-server` |
| CreateWorkspace.AutoApplyNotTrimmed | pkg/tools/tfe/create_workspace.go:80-99 | `auto_apply` is not trimmed, unlike the names: ` true` leaves auto-apply off while ` org ` becomes `org` |

## Left out

- Network and SDK calls are parameters of the model. This covers the service client, run/plan/apply/state reads, log fetching and reading, the state download, and workspace creation. The model takes their outcomes as inputs: `LogFetch`, `Download`, the `listed` outputs and `clientReady`.
- Tool registration, logging, timeouts, `ToolError` wrapping and the create call's own errors are not modelled.
- The metadata header lines and timestamps are not modelled. This covers run/plan/apply/state IDs, statuses, counts and timestamp formatting, which are plain field printing with a fixed layout.
- The "Resource Drift" section and the "Output Changes" listing of `buildFormattedPlanResponse` are not modelled. The drift section repeats the resource entry per drifted change. The output listing walks a Go map in unspecified order.
- Non-integral numbers are not modelled. `Value.Num` holds integers only, so the `%g` branches (get_plan_details.go:491, get_current_state.go:194) are not modelled. Nor is the `float64`→`int64` conversion for values outside the 64-bit range.
- The `%v` default branches (get_plan_details.go:526-527, get_current_state.go:200-201) are not modelled. They are unreachable for decoded JSON. Marshal failures (get_plan_details.go:518-519, 536-537) are also left out.
- Values.Quote: models `%q` and `encoding/json` string quoting for printable ASCII text only. It escapes `"` and `\`. Go additionally escapes non-printable characters and invalid UTF-8 bytes (and, in JSON, `<`, `>`, `&`, U+2028 and U+2029), and counts bytes rather than characters; printable non-ASCII text is copied unchanged by both.
- Text.TrimSpace and Text.ToLower: ASCII only. Lengths count characters; for ASCII text these equal Go's byte lengths.
- CurrentState.FullStateSection: takes the pretty-printed JSON as its input. `json.MarshalIndent` is not modelled.
- CreateWorkspace.BuildCreateRequest: does not distinguish a nil tag list (empty argument) from an empty one (argument with only commas or spaces). Both are the empty sequence.

## Notes on the source

- The longest string display: the code shows a string longer than 200 characters as the `%q` quoting of its first 200 bytes plus `... (truncated)`. For printable ASCII text that is 217 characters when nothing needs escaping and up to 417 when every character is a `"` or `\`; `Values.FormatStringShowsText` states this bound for the model's quoting. Go's `%q` writes `\t`, `\n` and the other common control characters as two-character escapes, but other control bytes and invalid bytes as a four-character `\xNN`, so in the program itself the display can reach 2 + 800 + 15 = 817 characters.
- The action classifier and the tally switch use the same literal strings. A change is counted as a no-op exactly when it is listed nowhere. `Plan.ActualChangesAndNoOps` proves that the listed changes and the no-op count together account for every change.
- Replacement summaries collide with joined tags: `summarizeActions` joins an unrecognised list with `, `, so the list `["replace (delete", "create)"]` and the one-tag list `["replace (delete, create)"]` both summarise to `replace (delete, create)`, are counted as replacements and get the `-/+` symbol (pkg/tools/tfe/get_plan_details.go lines 273, 306 and 318). Terraform's own action tags never contain `, `, so this does not arise with plans it produces. `Plan.JoinedTagsLookLikeReplace` states the collision.

=== FILE: actions.dfy ===
/** The plan's action vocabulary: `summarizeActions` reduces a change's action list to
    one verb, `actionSymbol` picks the header symbol for that verb and
    `formatActionReason` turns a machine reason code into a sentence. */
module Actions {
  import opened Text

  const Replace1: string := "replace (delete, create)"
  const Replace2: string := "replace (create, delete)"

  /** The five action tags a one-element list may hold. */
  predicate IsSingleTag(a: string) {
    a == "create" || a == "delete" || a == "update" || a == "read" || a == "no-op"
  }

  /** `summarizeActions`: a known single tag names itself, the two two-step orders name
      a replacement, and anything else is the tags joined with ", ". */
  function SummarizeActions(actions: seq<string>): (r: string)
  {
    if |actions| == 1 && IsSingleTag(actions[0]) then actions[0]
    else if |actions| == 2 && actions[0] == "delete" && actions[1] == "create" then Replace1
    else if |actions| == 2 && actions[0] == "create" && actions[1] == "delete" then Replace2
    else Join(actions, ", ")
  }

  /** `w` occurs in `s` starting at position `i`. */
  predicate InfixAt(s: string, w: string, i: nat) {
    i + |w| <= |s| && s[i..i + |w|] == w
  }

  /** `w` occurs in `s` as a contiguous piece. */
  ghost predicate HasInfix(s: string, w: string) {
    exists i: nat :: InfixAt(s, w, i)
  }

  /** A one-element list summarises to its tag, known or not: a known tag is returned
      by the table and an unknown one comes back through the join. */
  lemma SummarizeSingle(a: string)
    ensures SummarizeActions([a]) == a
  {
  }

  /** The two replacement orders give two different verbs, each naming its order. */
  lemma SummarizeReplacements()
    ensures SummarizeActions(["delete", "create"]) == Replace1
    ensures SummarizeActions(["create", "delete"]) == Replace2
    ensures Replace1 != Replace2
  {
    assert Replace1[9] != Replace2[9];
  }

  /** Every other list is the ", "-join of its tags; the empty list gives "". */
  lemma SummarizeOther(actions: seq<string>)
    requires |actions| != 1 && actions != ["delete", "create"] && actions != ["create", "delete"]
    ensures SummarizeActions(actions) == Join(actions, ", ")
    ensures actions == [] ==> SummarizeActions(actions) == ""
  {
    if |actions| == 2 {
      assert actions == [actions[0], actions[1]];
    }
  }

  /** Joining two or more pieces puts the separator into the text. */
  lemma JoinHasSeparator(xs: seq<string>, sep: string)
    requires |xs| >= 2
    ensures HasInfix(Join(xs, sep), sep)
  {
    var j := Join(xs, sep);
    assert j == xs[0] + sep + Join(xs[1..], sep);
    assert InfixAt(j, sep, |xs[0]|);
  }

  /** A verb without ", " in it is produced by exactly one action list: the list holding
      just that verb. So the tally below counts a change as created, updated, deleted,
      read or left alone only when its action list is exactly that one tag. */
  lemma {:induction false} SummaryIdentifiesSingleTag(actions: seq<string>, t: string)
    requires t != [] && !HasInfix(t, ", ")
    ensures SummarizeActions(actions) == t <==> actions == [t]
  {
    if SummarizeActions(actions) == t {
      if |actions| == 2 && actions[0] == "delete" && actions[1] == "create" {
        assert InfixAt(Replace1, ", ", 15);
        assert false;
      } else if |actions| == 2 && actions[0] == "create" && actions[1] == "delete" {
        assert InfixAt(Replace2, ", ", 15);
        assert false;
      } else if |actions| >= 2 {
        JoinHasSeparator(actions, ", ");
        assert false;
      } else if |actions| == 1 {
        assert actions == [actions[0]];
      } else {
        assert false;
      }
    }
  }

  /** `actionSymbol`: the header symbol for a summarised action. */
  function ActionSymbol(action: string): (r: string)
  {
    match action
    case "create" => "+"
    case "delete" => "-"
    case "update" => "~"
    case "replace (delete, create)" => "-/+"
    case "replace (create, delete)" => "-/+"
    case "read" => "<="
    case _ => " "
  }

  /** The summaries `actionSymbol` gives a symbol of its own. */
  predicate HasSymbol(action: string) {
    action == "create" || action == "delete" || action == "update" || action == "read"
    || action == Replace1 || action == Replace2
  }

  /** Every symbol is one of six: `+`, `-`, `~` and `<=` for create, delete, update
      and read, `-/+` exactly for the two replacements, and the blank one exactly for
      the summaries the table does not know, which includes "no-op". */
  lemma ActionSymbolTable(action: string)
    ensures var r := ActionSymbol(action);
      r == "+" || r == "-" || r == "~" || r == "-/+" || r == "<=" || r == " "
    ensures ActionSymbol(action) == " " <==> !HasSymbol(action)
    ensures ActionSymbol(action) == "-/+" <==> action == Replace1 || action == Replace2
    ensures ActionSymbol("create") == "+" && ActionSymbol("delete") == "-"
    ensures ActionSymbol("update") == "~" && ActionSymbol("read") == "<="
    ensures ActionSymbol("no-op") == " "
  {
  }

  /** The ten reason codes `formatActionReason` knows. */
  predicate IsKnownReason(reason: string) {
    reason == "replace_because_tainted" || reason == "replace_because_cannot_update"
    || reason == "replace_by_request" || reason == "delete_because_no_resource_config"
    || reason == "delete_because_no_module" || reason == "delete_because_wrong_repetition"
    || reason == "delete_because_count_index" || reason == "delete_because_each_key"
    || reason == "read_because_config_unknown" || reason == "read_because_dependency_pending"
  }

  /** `formatActionReason`: a known code becomes its sentence, anything else is kept. */
  function FormatActionReason(reason: string): (r: string)
  {
    match reason
    case "replace_because_tainted" => "resource is tainted, so must be replaced"
    case "replace_because_cannot_update" => "provider requires replacement to apply changes"
    case "replace_by_request" => "replacement was requested"
    case "delete_because_no_resource_config" => "no resource configuration found"
    case "delete_because_no_module" => "module instance no longer declared"
    case "delete_because_wrong_repetition" => "instance key not compatible with repetition mode"
    case "delete_because_count_index" => "count index out of range"
    case "delete_because_each_key" => "for_each key not in current configuration"
    case "read_because_config_unknown" => "configuration values unknown until apply"
    case "read_because_dependency_pending" => "depends on resource with pending changes"
    case _ => reason
  }

  /** A reason passes through unchanged exactly when it is not one of the ten known
      codes: no sentence repeats its own code. */
  lemma FormatActionReasonPassThrough(reason: string)
    ensures FormatActionReason(reason) == reason <==> !IsKnownReason(reason)
  {
  }
}

=== FILE: arguments.dfy ===
/** The tool-call arguments the handlers read, and the two accessors they use on them:
    `RequireString`, which fails for a missing or non-string argument, and `GetString`,
    which falls back to a default in both cases. */
module Arguments {
  import opened Wrappers
  import opened Values

  /** The decoded JSON arguments of one tool call. */
  type Args = map<string, Value>

  datatype ArgError = Missing(key: string) | NotAString(key: string)

  /** A required string argument: its text, or why it cannot be had. */
  function RequireString(args: Args, key: string): (r: Result<string, ArgError>)
    ensures r.Success? <==> key in args && args[key].Str?
    ensures r.Success? ==> r.value == args[key].s
    ensures r == Failure(Missing(key)) <==> key !in args
    ensures key in args && !args[key].Str? ==> r == Failure(NotAString(key))
  {
    if key !in args then Failure(Missing(key))
    else if !args[key].Str? then Failure(NotAString(key))
    else Success(args[key].s)
  }

  /** An optional string argument, or `default` when it is absent or not a string. */
  function GetString(args: Args, key: string, default: string): string {
    if key in args && args[key].Str? then args[key].s else default
  }

  /** The optional read gives exactly what the required read would, and the default in
      place of any failure. */
  lemma GetStringAgreesWithRequire(args: Args, key: string, default: string)
    ensures RequireString(args, key).Success? ==> GetString(args, key, default) == RequireString(args, key).value
    ensures RequireString(args, key).Failure? ==> GetString(args, key, default) == default
  {
  }
}

=== FILE: attribute_diff.dfy ===
/** The attribute diff of one resource change: `mergeKeys`, `writeDiff`,
    `writeMapValues` and the dispatcher `buildAttributeDiff` with its 4000-character cap. */
module AttributeDiff {
  import opened Text
  import opened StringOrder
  import opened Values
  import opened Actions
  import opened Encoding

  type Attributes = map<string, Value>

  /** Two spaces per nesting level. */
  function Indent(depth: nat): (r: string)
    ensures |r| == 2 * depth
  {
    Repeat("  ", depth)
  }

  /** `mergeKeys`: every key of either map once, gathered in the maps' (unspecified)
      iteration order and then sorted. The result is the canonical sorted key list of
      the union, whatever order the maps were walked in. */
  method MergeKeys(a: Attributes, b: Attributes) returns (keys: seq<string>)
    ensures StrictlySorted(keys)
    ensures forall k :: k in keys <==> k in a || k in b
    ensures keys == SortedKeys(a.Keys + b.Keys)
  {
    var gathered, seen := GatherUnseen([], {}, a.Keys);
    gathered, seen := GatherUnseen(gathered, seen, b.Keys);
    keys := SortStrings(gathered);
    SortedDistinctIsStrict(keys, gathered);
    forall k ensures k in keys <==> k in gathered {
      assert k in keys <==> k in multiset(keys);
      assert k in gathered <==> k in multiset(gathered);
    }
    SortedKeysCharacterization(a.Keys + b.Keys, keys);
  }

  /** One loop of `mergeKeys`: walk `keys` in any order, appending each key not yet seen. */
  method GatherUnseen(gathered: seq<string>, seen: set<string>, keys: set<string>)
    returns (gathered': seq<string>, seen': set<string>)
    requires Distinct(gathered) && forall k :: k in gathered <==> k in seen
    ensures Distinct(gathered') && forall k :: k in gathered' <==> k in seen'
    ensures seen' == seen + keys
  {
    gathered', seen' := gathered, seen;
    var rest := keys;
    while rest != {}
      invariant rest <= keys
      invariant seen' == seen + (keys - rest)
      invariant Distinct(gathered')
      invariant forall k :: k in gathered' <==> k in seen'
    {
      var k :| k in rest;
      if k !in seen' {
        seen' := seen' + {k};
        gathered' := gathered' + [k];
      }
      rest := rest - {k};
    }
  }

  /** What `writeDiff` reports for one key. */
  datatype KeyChange =
    | Added(after: Value)
    | Removed(before: Value)
    | Changed(before: Value, after: Value)
    | Unchanged

  /** The report for `key`: present on one side only, or on both with encodings that
      differ or agree. */
  function Classify(before: Attributes, after: Attributes, key: string): KeyChange
  {
    if key !in before && key in after then Added(after[key])
    else if key in before && key !in after then Removed(before[key])
    else if key in before && key in after && !ValuesEqual(before[key], after[key]) then
      Changed(before[key], after[key])
    else Unchanged
  }

  datatype Entry = Entry(key: string, change: KeyChange)

  /** The reported keys of `keys`, in the order given, skipping unchanged ones. */
  function EntriesOver(before: Attributes, after: Attributes, keys: seq<string>): (r: seq<Entry>)
    ensures forall i | 0 <= i < |r| :: r[i].key in keys && r[i].change == Classify(before, after, r[i].key)
    ensures forall i | 0 <= i < |r| :: !r[i].change.Unchanged?
    decreases |keys|
  {
    if keys == [] then []
    else
      var c := Classify(before, after, keys[0]);
      var rest := EntriesOver(before, after, keys[1..]);
      if c.Unchanged? then rest else [Entry(keys[0], c)] + rest
  }

  function EntryKeys(es: seq<Entry>): (r: seq<string>)
    ensures |r| == |es| && forall i | 0 <= i < |es| :: r[i] == es[i].key
  {
    seq(|es|, i requires 0 <= i < |es| => es[i].key)
  }

  /** The keys that deserve a line: on one side only, or on both with unequal values. */
  ghost predicate Reported(before: Attributes, after: Attributes, key: string) {
    (key in before || key in after) && !Classify(before, after, key).Unchanged?
  }

  /** The entries of `writeDiff`, one per reported key of either map, in increasing key
      order. */
  function DiffEntries(before: Attributes, after: Attributes): (r: seq<Entry>)
  {
    EntriesOver(before, after, SortedKeys(before.Keys + after.Keys))
  }

  lemma {:induction false} EntriesOverKeys(before: Attributes, after: Attributes, keys: seq<string>)
    requires StrictlySorted(keys)
    ensures var ks := EntryKeys(EntriesOver(before, after, keys));
      && StrictlySorted(ks)
      && forall k :: k in ks <==> k in keys && !Classify(before, after, k).Unchanged?
    decreases |keys|
  {
    if keys != [] {
      var k := keys[0];
      SortedTail(keys);
      EntriesOverKeys(before, after, keys[1..]);
      var rest := EntriesOver(before, after, keys[1..]);
      var ks := EntryKeys(rest);
      var c := Classify(before, after, k);
      if !c.Unchanged? {
        assert EntryKeys([Entry(k, c)] + rest) == [k] + ks;
        SortedCons(k, ks);
      }
      assert forall x :: x in keys <==> x == k || x in keys[1..];
    }
  }

  /** The tail of a strictly increasing list is strictly increasing and above its head. */
  lemma SortedTail(keys: seq<string>)
    requires keys != [] && StrictlySorted(keys)
    ensures StrictlySorted(keys[1..])
    ensures forall x | x in keys[1..] :: Less(keys[0], x)
  {
    forall x | x in keys[1..]
      ensures Less(keys[0], x)
    {
      var j :| 0 <= j < |keys[1..]| && keys[1..][j] == x;
      assert keys[j + 1] == x;
    }
  }

  /** A key below every key of a strictly increasing list extends it. */
  lemma SortedCons(k: string, ks: seq<string>)
    requires StrictlySorted(ks) && forall x | x in ks :: Less(k, x)
    ensures StrictlySorted([k] + ks)
  {
    var s := [k] + ks;
    forall i, j | 0 <= i < j < |s|
      ensures Less(s[i], s[j])
    {
      assert s[j] == ks[j - 1];
      if i > 0 {
        assert s[i] == ks[i - 1];
      } else {
        assert ks[j - 1] in ks;
      }
    }
  }

  /** The lines `writeDiff` produces are exactly one per reported key, each of the right
      kind, in strictly increasing key order: a key only in `after` is added, one only in
      `before` removed, one on both sides with differing encodings changed, and one on
      both sides with equal encodings never shown. */
  lemma DiffEntriesSpec(before: Attributes, after: Attributes)
    ensures var es := DiffEntries(before, after);
      && StrictlySorted(EntryKeys(es))
      && (forall k :: k in EntryKeys(es) <==> Reported(before, after, k))
      && (forall i | 0 <= i < |es| :: es[i].change == Classify(before, after, es[i].key))
    ensures forall k | k !in before && k in after :: Classify(before, after, k) == Added(after[k])
    ensures forall k | k in before && k !in after :: Classify(before, after, k) == Removed(before[k])
    ensures forall k | k in before && k in after ::
      Classify(before, after, k).Unchanged? <==> ValuesEqual(before[k], after[k])
  {
    EntriesOverKeys(before, after, SortedKeys(before.Keys + after.Keys));
  }

  /** Comparing encodings compares values: a key is reported exactly when it is on one
      side only or its two values differ. */
  lemma ReportedIffValuesDiffer(before: Attributes, after: Attributes, k: string)
    ensures Reported(before, after, k) <==>
      (k in before) != (k in after) || (k in before && k in after && before[k] != after[k])
  {
    if k in before && k in after {
      ValuesEqualIsEquality(before[k], after[k]);
    }
  }

  /** The diff of two attribute maps is empty exactly when they are the same map. */
  lemma DiffEmptyIffEqual(before: Attributes, after: Attributes)
    ensures DiffEntries(before, after) == [] <==> before == after
  {
    if before == after {
      DiffOfSameEmpty(before);
    } else {
      DiffOfDifferentNonEmpty(before, after);
    }
  }

  lemma DiffOfSameEmpty(m: Attributes)
    ensures DiffEntries(m, m) == []
  {
    forall k
      ensures Classify(m, m, k).Unchanged?
    {
      if k in m {
        ValuesEqualIsEquality(m[k], m[k]);
      }
    }
    EntriesOverUnchanged(m, m, SortedKeys(m.Keys + m.Keys));
  }

  /** Keys that all compare unchanged give no entries. */
  lemma {:induction false} EntriesOverUnchanged(before: Attributes, after: Attributes, keys: seq<string>)
    requires forall i | 0 <= i < |keys| :: Classify(before, after, keys[i]).Unchanged?
    ensures EntriesOver(before, after, keys) == []
    decreases |keys|
  {
    if keys != [] {
      EntriesOverUnchanged(before, after, keys[1..]);
    }
  }

  lemma DiffOfDifferentNonEmpty(before: Attributes, after: Attributes)
    requires before != after
    ensures DiffEntries(before, after) != []
  {
    var k :| (k in before) != (k in after) || (k in before && k in after && before[k] != after[k]);
    ReportedIffValuesDiffer(before, after, k);
    DiffEntriesSpec(before, after);
    assert k in EntryKeys(DiffEntries(before, after));
  }

  /** `key = value` line of `writeMapValues`, and of `writeDiff` for one-sided keys. */
  function ValueLine(prefix: string, depth: nat, key: string, v: Value): string {
    prefix + Indent(depth) + key + " = " + FormatValue(v, depth + 1) + "\n"
  }

  /** The text of one `writeDiff` line. */
  function RenderEntry(e: Entry, depth: nat): string {
    match e.change
    case Added(a) => ValueLine("+ ", depth, e.key, a)
    case Removed(b) => ValueLine("- ", depth, e.key, b)
    case Changed(b, a) =>
      "~ " + Indent(depth) + e.key + " = " + FormatValue(b, depth + 1) + " -> "
      + FormatValue(a, depth + 1) + "\n"
    case Unchanged => ""
  }

  function RenderEntries(es: seq<Entry>, depth: nat): string
    decreases |es|
  {
    if es == [] then "" else RenderEntry(es[0], depth) + RenderEntries(es[1..], depth)
  }

  /** `writeDiff(before, after, depth)`: the rendered lines of `DiffEntries`. */
  function WriteDiff(before: Attributes, after: Attributes, depth: nat): string {
    RenderEntries(DiffEntries(before, after), depth)
  }

  /** `order` lists every key of `keys` exactly once. */
  ghost predicate Enumerates(order: seq<string>, keys: set<string>) {
    Distinct(order) && forall k :: k in order <==> k in keys
  }

  /** The lines `writeMapValues` writes when it meets the keys in `order`. */
  function ValueLines(m: Attributes, order: seq<string>, prefix: string, depth: nat): string
    requires forall i | 0 <= i < |order| :: order[i] in m
    decreases |order|
  {
    if order == [] then ""
    else ValueLine(prefix, depth, order[0], m[order[0]]) + ValueLines(m, order[1..], prefix, depth)
  }

  lemma {:induction false} ValueLinesAppend(m: Attributes, order: seq<string>, k: string, prefix: string, depth: nat)
    requires forall i | 0 <= i < |order| :: order[i] in m
    requires k in m
    ensures ValueLines(m, order + [k], prefix, depth)
         == ValueLines(m, order, prefix, depth) + ValueLine(prefix, depth, k, m[k])
    decreases |order|
  {
    if order != [] {
      assert (order + [k])[1..] == order[1..] + [k];
      ValueLinesAppend(m, order[1..], k, prefix, depth);
    }
  }

  /** `writeMapValues`: one `prefix key = value` line per key of `m`, in Go's
      unspecified map order; `order` is the order that was used. */
  method WriteMapValues(m: Attributes, prefix: string, depth: nat) returns (r: string, ghost order: seq<string>)
    ensures Enumerates(order, m.Keys)
    ensures r == ValueLines(m, order, prefix, depth)
    ensures r == "" <==> |m| == 0
    ensures |m| > 0 ==> prefix <= r
  {
    r := "";
    order := [];
    var rest := m.Keys;
    while rest != {}
      invariant rest <= m.Keys
      invariant Distinct(order)
      invariant forall i | 0 <= i < |order| :: order[i] in m
      invariant forall k :: k in order <==> k in m.Keys - rest
      invariant r == ValueLines(m, order, prefix, depth)
      invariant r == "" <==> order == []
      invariant order != [] ==> prefix <= r
    {
      var key :| key in rest;
      assert key !in order;
      ValueLinesAppend(m, order, key, prefix, depth);
      r := r + ValueLine(prefix, depth, key, m[key]);
      order := order + [key];
      rest := rest - {key};
    }
    assert |m| > 0 ==> order != [] by {
      if |m| > 0 {
        var k :| k in m.Keys;
        assert k in order;
      }
    }
  }

  /** Dumping a map is a diff against an empty map: walked in sorted order, the `+ `
      dump of a created resource is `writeDiff` from nothing, and the `- ` dump of a
      deleted one is `writeDiff` to nothing. */
  lemma DumpIsDiffAgainstEmpty(m: Attributes, depth: nat)
    ensures ValueLines(m, SortedKeys(m.Keys), "+ ", depth) == WriteDiff(map[], m, depth)
    ensures ValueLines(m, SortedKeys(m.Keys), "- ", depth) == WriteDiff(m, map[], depth)
  {
    var empty: Attributes := map[];
    assert empty.Keys + m.Keys == m.Keys;
    assert m.Keys + empty.Keys == m.Keys;
    AddedLines(m, SortedKeys(m.Keys), depth);
    RemovedLines(m, SortedKeys(m.Keys), depth);
  }

  lemma {:induction false} AddedLines(m: Attributes, keys: seq<string>, depth: nat)
    requires forall i | 0 <= i < |keys| :: keys[i] in m
    ensures ValueLines(m, keys, "+ ", depth) == RenderEntries(EntriesOver(map[], m, keys), depth)
    decreases |keys|
  {
    if keys != [] {
      AddedLines(m, keys[1..], depth);
      var e := Entry(keys[0], Added(m[keys[0]]));
      assert Classify(map[], m, keys[0]) == e.change;
      var es := [e] + EntriesOver(map[], m, keys[1..]);
      assert es[1..] == EntriesOver(map[], m, keys[1..]);
    }
  }

  lemma {:induction false} RemovedLines(m: Attributes, keys: seq<string>, depth: nat)
    requires forall i | 0 <= i < |keys| :: keys[i] in m
    ensures ValueLines(m, keys, "- ", depth) == RenderEntries(EntriesOver(m, map[], keys), depth)
    decreases |keys|
  {
    if keys != [] {
      RemovedLines(m, keys[1..], depth);
      var e := Entry(keys[0], Removed(m[keys[0]]));
      assert Classify(m, map[], keys[0]) == e.change;
      var es := [e] + EntriesOver(m, map[], keys[1..]);
      assert es[1..] == EntriesOver(m, map[], keys[1..]);
    }
  }

  /** Longest diff body shown in full. */
  const MaxDiffSize: nat := 4000

  const DiffTruncatedMarker: string := "\n... (diff truncated, too many changes to display)\n"

  /** The cap `buildAttributeDiff` applies to the finished body. */
  function CapDiff(body: string): string {
    if |body| > MaxDiffSize then body[..MaxDiffSize] + DiffTruncatedMarker else body
  }

  /** A body of at most 4000 characters is kept as it is; a longer one keeps exactly its
      first 4000 characters and gains the marker, however many lines it had. */
  lemma CapDiffSpec(body: string)
    ensures |body| <= MaxDiffSize ==> CapDiff(body) == body
    ensures |CapDiff(body)| <= MaxDiffSize + |DiffTruncatedMarker|
    ensures |body| > MaxDiffSize ==>
      && |CapDiff(body)| == MaxDiffSize + |DiffTruncatedMarker|
      && CapDiff(body)[..MaxDiffSize] == body[..MaxDiffSize]
      && CapDiff(body)[MaxDiffSize..] == DiffTruncatedMarker
  {
  }

  /** The summaries `buildAttributeDiff` diffs key by key. */
  predicate IsDiffAction(action: string) {
    action == "update" || action == Replace1 || action == Replace2
  }

  /** What `buildAttributeDiff` returns, given the order the dumped map was walked in. */
  ghost predicate IsAttributeDiff(before: Value, after: Value, action: string, order: seq<string>, r: string) {
    if action == "create" then
      if after.Obj? then Enumerates(order, after.fields.Keys) && r == CapDiff(ValueLines(after.fields, order, "+ ", 0))
      else r == ""
    else if action == "delete" then
      if before.Obj? then Enumerates(order, before.fields.Keys) && r == CapDiff(ValueLines(before.fields, order, "- ", 0))
      else r == ""
    else if IsDiffAction(action) then
      r == (if before.Obj? && after.Obj? then CapDiff(WriteDiff(before.fields, after.fields, 0)) else "")
    else r == ""
  }

  /** `buildAttributeDiff`: a created resource dumps only `after` with `+ `, a deleted
      one only `before` with `- `; an update or replacement diffs the two maps key by key
      and shows nothing unless both sides are maps; any other action shows nothing. The
      result never passes 4000 characters plus the truncation marker. */
  method BuildAttributeDiff(before: Value, after: Value, action: string) returns (r: string, ghost order: seq<string>)
    ensures IsAttributeDiff(before, after, action, order, r)
    ensures |r| <= MaxDiffSize + |DiffTruncatedMarker|
  {
    var body := "";
    order := [];
    if action == "create" {
      if after.Obj? {
        body, order := WriteMapValues(after.fields, "+ ", 0);
      }
    } else if action == "delete" {
      if before.Obj? {
        body, order := WriteMapValues(before.fields, "- ", 0);
      }
    } else if IsDiffAction(action) {
      if before.Obj? && after.Obj? {
        var keys := MergeKeys(before.fields, after.fields);
        body := RenderEntries(EntriesOver(before.fields, after.fields, keys), 0);
      }
    }
    r := CapDiff(body);
  }
}

=== FILE: create_workspace.dfy ===
/** The input handling of `create_workspace`: from the tool-call arguments to either an
    error or the organisation and workspace options sent to the service. */
module CreateWorkspace {
  import opened Wrappers
  import opened Text
  import opened Values
  import opened Arguments

  datatype ExecutionMode = Remote | Local | Agent

  function ModeName(m: ExecutionMode): string {
    match m
    case Remote => "remote"
    case Local => "local"
    case Agent => "agent"
  }

  /** The execution mode argument, compared lower-cased; empty means remote. */
  function ParseExecutionMode(raw: string): (r: Option<ExecutionMode>)
  {
    match ToLower(raw)
    case "local" => Some(Local)
    case "agent" => Some(Agent)
    case "remote" => Some(Remote)
    case "" => Some(Remote)
    case _ => None
  }

  /** Exactly the three mode names, in any capitalisation, and the empty string are
      accepted, and an accepted name gives the mode it names. */
  lemma ExecutionModeAccepted(raw: string)
    ensures ParseExecutionMode(raw).Some? <==>
      ToLower(raw) in {"local", "agent", "remote", ""}
    ensures ParseExecutionMode(raw).Some? && raw != "" ==>
      ModeName(ParseExecutionMode(raw).value) == ToLower(raw)
    ensures raw == "" ==> ParseExecutionMode(raw) == Some(Remote)
  {
  }

  /** Each mode's own name, in any capitalisation, is read back as that mode. */
  lemma ExecutionModeRoundTrip(m: ExecutionMode, raw: string)
    requires ToLower(raw) == ModeName(m)
    ensures ParseExecutionMode(raw) == Some(m)
  {
  }

  /** The trimmed, non-empty pieces of `pieces`, in order. */
  function KeepTrimmed(pieces: seq<string>): (r: seq<string>)
    ensures |r| <= |pieces|
    ensures forall i | 0 <= i < |r| :: r[i] != "" && Trimmed(r[i])
    decreases |pieces|
  {
    if pieces == [] then []
    else
      var t := TrimSpace(pieces[0]);
      (if t != "" then [t] else []) + KeepTrimmed(pieces[1..])
  }

  /** The `tags` argument: none when empty, otherwise the trimmed text split at commas,
      each piece trimmed and the empty ones dropped. */
  function ParseTags(raw: string): seq<string> {
    if raw == "" then [] else KeepTrimmed(Split(TrimSpace(raw), ','))
  }

  /** Every tag is non-empty, has no white space at either end and no comma, and there
      are at most one more tags than commas in the argument. */
  lemma ParseTagsWellFormed(raw: string)
    ensures var tags := ParseTags(raw);
      |tags| <= Occurrences(raw, ',') + 1
      && forall i | 0 <= i < |tags| :: tags[i] != "" && Trimmed(tags[i]) && ',' !in tags[i]
  {
    if raw != "" {
      var t := TrimSpace(raw);
      var k := TrimStart(raw);
      assert raw == raw[..k] + t + raw[k + |t|..];
      OccurrencesAppend(raw[..k] + t, raw[k + |t|..], ',');
      OccurrencesAppend(raw[..k], t, ',');
      KeepTrimmedNoComma(Split(t, ','));
    }
  }

  lemma {:induction false} KeepTrimmedNoComma(pieces: seq<string>)
    requires forall i | 0 <= i < |pieces| :: ',' !in pieces[i]
    ensures forall i | 0 <= i < |KeepTrimmed(pieces)| :: ',' !in KeepTrimmed(pieces)[i]
    decreases |pieces|
  {
    if pieces != [] {
      var t := TrimSpace(pieces[0]);
      var k := TrimStart(pieces[0]);
      assert t == pieces[0][k..k + |t|];
      assert ',' !in t;
      KeepTrimmedNoComma(pieces[1..]);
    }
  }

  /** Tags written back as a comma-separated list are read back as the same tags in the
      same order. */
  lemma ParseTagsRoundTrip(tags: seq<string>)
    requires forall i | 0 <= i < |tags| :: tags[i] != "" && Trimmed(tags[i]) && ',' !in tags[i]
    ensures ParseTags(Join(tags, ",")) == tags
  {
    if tags != [] {
      var raw := Join(tags, ",");
      JoinEnds(tags);
      TrimSpaceOfTrimmed(raw);
      SplitJoin(tags, ',');
      KeepTrimmedOfTrimmed(tags);
    }
  }

  /** A comma-join of non-empty trimmed pieces starts with the first piece's first
      character and ends with the last piece's last character. */
  lemma {:induction false} JoinEnds(xs: seq<string>)
    requires xs != [] && forall i | 0 <= i < |xs| :: xs[i] != "" && Trimmed(xs[i])
    ensures var j := Join(xs, ",");
      |j| > 0 && Trimmed(j)
    decreases |xs|
  {
    var j := Join(xs, ",");
    if |xs| > 1 {
      JoinEnds(xs[1..]);
      var rest := Join(xs[1..], ",");
      assert j == xs[0] + "," + rest;
      assert j[0] == xs[0][0];
      assert j[|j| - 1] == rest[|rest| - 1];
    }
  }

  lemma {:induction false} KeepTrimmedOfTrimmed(xs: seq<string>)
    requires forall i | 0 <= i < |xs| :: xs[i] != "" && Trimmed(xs[i])
    ensures KeepTrimmed(xs) == xs
    decreases |xs|
  {
    if xs != [] {
      TrimSpaceOfTrimmed(xs[0]);
      KeepTrimmedOfTrimmed(xs[1..]);
      assert xs == [xs[0]] + xs[1..];
    }
  }

  datatype VcsRepo = VcsRepo(identifier: string, oauthTokenId: string, branch: Option<string>)

  /** The options record of the create call. `None` fields are left unset. */
  datatype WorkspaceOptions = WorkspaceOptions(
    name: string,
    autoApply: bool,
    tags: seq<string>,
    sourceName: string,
    description: Option<string>,
    terraformVersion: Option<string>,
    workingDirectory: Option<string>,
    projectId: Option<string>,
    executionMode: Option<ExecutionMode>,
    vcsRepo: Option<VcsRepo>)

  /** The organisation the workspace is created in, and its options. */
  datatype CreateRequest = CreateRequest(organization: string, options: WorkspaceOptions)

  datatype CreateError =
    | MissingOrganization(cause: ArgError)
    | MissingWorkspaceName(cause: ArgError)
    | InvalidExecutionMode(raw: string)
    | ClientUnavailable
    | MissingOAuthToken

  /** A field that is set only when its argument is non-empty. */
  function SetIfNonEmpty(s: string): (r: Option<string>)
    ensures r.Some? <==> s != ""
    ensures r.Some? ==> r.value == s
  {
    if s != "" then Some(s) else None
  }

  /** The source name every workspace this server creates is tagged with. */
  const SourceName: string := "terraform-mcp-server"

  /** The handler's input logic up to the create call. The service client is looked up
      between the execution-mode check and the VCS check, so its availability
      (`clientReady`) decides which of those two errors can be reported. */
  function BuildCreateRequest(args: Args, clientReady: bool): (r: Result<CreateRequest, CreateError>)
  {
    match RequireString(args, "terraform_org_name")
    case Failure(e) => Failure(MissingOrganization(e))
    case Success(org) =>
      match RequireString(args, "workspace_name")
      case Failure(e) => Failure(MissingWorkspaceName(e))
      case Success(workspace) =>
        var modeArg := GetString(args, "execution_mode", "");
        var identifier := GetString(args, "vcs_repo_identifier", "");
        var token := GetString(args, "vcs_repo_oauth_token_id", "");
        match ParseExecutionMode(modeArg)
        case None => Failure(InvalidExecutionMode(modeArg))
        case Some(mode) =>
          if !clientReady then Failure(ClientUnavailable)
          else if identifier != "" && token == "" then Failure(MissingOAuthToken)
          else
            var options := WorkspaceOptions(
              TrimSpace(workspace),
              ToLower(GetString(args, "auto_apply", "false")) == "true",
              ParseTags(GetString(args, "tags", "")),
              SourceName,
              SetIfNonEmpty(GetString(args, "description", "")),
              SetIfNonEmpty(GetString(args, "terraform_version", "")),
              SetIfNonEmpty(GetString(args, "working_directory", "")),
              SetIfNonEmpty(GetString(args, "project_id", "")),
              if modeArg != "" then Some(mode) else None,
              if identifier != "" then
                Some(VcsRepo(identifier, token, SetIfNonEmpty(GetString(args, "vcs_repo_branch", ""))))
              else None);
            Success(CreateRequest(TrimSpace(org), options))
  }

  /** The errors, in the order they are checked: a missing organisation, a missing
      workspace name, a bad execution mode, no client, and a VCS identifier without a
      token. Each is reported exactly when all earlier checks pass and its own fails. */
  lemma BuildCreateRequestErrors(args: Args, clientReady: bool)
    ensures var r := BuildCreateRequest(args, clientReady);
      var org := RequireString(args, "terraform_org_name");
      var ws := RequireString(args, "workspace_name");
      var mode := ParseExecutionMode(GetString(args, "execution_mode", ""));
      var vcsBad := GetString(args, "vcs_repo_identifier", "") != "" && GetString(args, "vcs_repo_oauth_token_id", "") == "";
      && (r.Failure? && r.error.MissingOrganization? <==> org.Failure?)
      && (r.Failure? && r.error.MissingWorkspaceName? <==> org.Success? && ws.Failure?)
      && (r.Failure? && r.error.InvalidExecutionMode? <==> org.Success? && ws.Success? && mode.None?)
      && (r.Failure? && r.error.ClientUnavailable? <==> org.Success? && ws.Success? && mode.Some? && !clientReady)
      && (r.Failure? && r.error.MissingOAuthToken? <==> org.Success? && ws.Success? && mode.Some? && clientReady && vcsBad)
      && (r.Success? <==> org.Success? && ws.Success? && mode.Some? && clientReady && !vcsBad)
  {
  }

  /** What a successful request carries: the trimmed organisation and name, auto-apply
      only for "true" in any capitalisation and without trimming, and each optional field
      set exactly when its argument is non-empty, holding that argument unchanged. */
  lemma BuildCreateRequestFields(args: Args, clientReady: bool)
    ensures var r := BuildCreateRequest(args, clientReady);
      r.Success? ==>
      var req := r.value;
      var o := req.options;
      && req.organization == TrimSpace(args["terraform_org_name"].s)
      && o.name == TrimSpace(args["workspace_name"].s)
      && Trimmed(req.organization) && Trimmed(o.name)
      && (o.autoApply <==> ToLower(GetString(args, "auto_apply", "false")) == "true")
      && o.tags == ParseTags(GetString(args, "tags", ""))
      && o.sourceName == SourceName
      && o.description == SetIfNonEmpty(GetString(args, "description", ""))
      && o.terraformVersion == SetIfNonEmpty(GetString(args, "terraform_version", ""))
      && o.workingDirectory == SetIfNonEmpty(GetString(args, "working_directory", ""))
      && o.projectId == SetIfNonEmpty(GetString(args, "project_id", ""))
      && (o.executionMode.Some? <==> GetString(args, "execution_mode", "") != "")
      && (o.executionMode.Some? ==> ToLower(GetString(args, "execution_mode", "")) == ModeName(o.executionMode.value))
      && (o.vcsRepo.Some? <==> GetString(args, "vcs_repo_identifier", "") != "")
      && (o.vcsRepo.Some? ==>
            (&& o.vcsRepo.value.oauthTokenId == GetString(args, "vcs_repo_oauth_token_id", "")
             && o.vcsRepo.value.oauthTokenId != ""
             && o.vcsRepo.value.identifier == GetString(args, "vcs_repo_identifier", "")
             && o.vcsRepo.value.branch == SetIfNonEmpty(GetString(args, "vcs_repo_branch", ""))))
  {
    ExecutionModeAccepted(GetString(args, "execution_mode", ""));
  }

  /** Arguments whose organisation is padded with blanks and whose auto-apply flag has a
      leading blank. */
  const PaddedArgs: Args := map["terraform_org_name" := Str(" org "), "workspace_name" := Str("ws"),
                                "auto_apply" := Str(" true")]

  lemma PaddedArgsLookups()
    ensures RequireString(PaddedArgs, "terraform_org_name") == Success(" org ")
    ensures RequireString(PaddedArgs, "workspace_name") == Success("ws")
    ensures GetString(PaddedArgs, "execution_mode", "") == ""
    ensures GetString(PaddedArgs, "vcs_repo_identifier", "") == ""
    ensures GetString(PaddedArgs, "vcs_repo_oauth_token_id", "") == ""
    ensures GetString(PaddedArgs, "auto_apply", "false") == " true"
  {
  }

  /** Auto-apply is not trimmed, unlike the names: " true" leaves it off while " org "
      becomes "org". */
  lemma AutoApplyNotTrimmed()
    ensures var r := BuildCreateRequest(PaddedArgs, true);
      r.Success? && !r.value.options.autoApply && r.value.organization == "org"
  {
    PaddedArgsLookups();
    assert ParseExecutionMode("") == Some(Remote) by {
      ExecutionModeAccepted("");
    }
    assert ToLower(" true")[0] == ' ';
    PaddedOrgTrims();
  }

  lemma PaddedOrgTrims()
    ensures TrimSpace(" org ") == "org"
  {
    var s := " org ";
    assert s[1..4] == "org";
    assert Trimmed(s[1..4]);
    assert AllSpace(s[..1]) && AllSpace(s[4..]);
    TrimSpaceOfPadded(s, 1, 4);
  }
}

=== FILE: current_state.dfy ===
/** The display rules of `get_current_state`: how an output value is shown, which
    outputs are hidden, how the `include_full_state` argument is read, the resource
    table's module cell and the optional full-state block. */
module CurrentState {
  import opened Wrappers
  import opened Text
  import opened Values
  import opened Arguments

  /** `formatOutputValue`: scalars in single backticks, a string verbatim (neither quoted
      nor cut), lists and maps as their JSON encoding in a fenced `json` block. */
  function FormatOutputValue(v: Value): (r: string)
  {
    match v
    case Null => "`null`"
    case Str(s) => "`" + s + "`"
    case Num(n) => "`" + IntToString(n) + "`"
    case Bool(b) => if b then "`true`" else "`false`"
    case Arr(_) => "```json\n" + Encode(v) + "\n```"
    case Obj(_) => "```json\n" + Encode(v) + "\n```"
  }

  /** Null, numbers and booleans are shown as in a plan diff, only wrapped in backticks. */
  lemma OutputScalarsMatchDiff(v: Value)
    requires v.Null? || v.Num? || v.Bool?
    ensures FormatOutputValue(v) == "`" + FormatValue(v, 0) + "`"
  {
  }

  /** A string output is shown in full between the backticks, however long; unlike the
      plan diff there is no quoting and no cut at 200 characters. */
  lemma OutputStringVerbatim(s: string)
    ensures var r := FormatOutputValue(Str(s));
      |r| == |s| + 2 && r[0] == '`' && r[|r| - 1] == '`' && r[1..|r| - 1] == s
  {
  }

  /** A list or map output reads back as its JSON encoding from inside the fence. */
  lemma OutputCollectionFenced(v: Value)
    requires v.Arr? || v.Obj?
    ensures var r := FormatOutputValue(v);
      |r| > 12 && r[..8] == "```json\n" && r[|r| - 4..] == "\n```" && r[8..|r| - 4] == Encode(v)
  {
    var r := FormatOutputValue(v);
    assert r == "```json\n" + Encode(v) + "\n```";
  }

  const FullStateKey: string := "include_full_state"

  /** The `include_full_state` argument, default "false", trimmed and lower-cased, must
      read "true". */
  function IncludeFullState(args: Args): bool {
    ToLower(TrimSpace(GetString(args, FullStateKey, "false"))) == "true"
  }

  /** `s` is some capitalisation of "true" at position `i`, with only white space around. */
  predicate PaddedTrue(s: string, i: nat) {
    i + 4 <= |s| && AllSpace(s[..i]) && AllSpace(s[i + 4..]) && ToLower(s[i..i + 4]) == "true"
  }

  /** The full state is requested exactly when the argument is a string holding "true"
      in any capitalisation with only white space around it; a missing or non-string
      argument never requests it. */
  lemma IncludeFullStateIff(args: Args)
    ensures IncludeFullState(args) <==>
      FullStateKey in args && args[FullStateKey].Str? && exists i: nat :: PaddedTrue(args[FullStateKey].s, i)
  {
    var s := GetString(args, FullStateKey, "false");
    if IncludeFullState(args) {
      var i := TrueIsPadded(s);
      if !(FullStateKey in args && args[FullStateKey].Str?) {
        DefaultIsNotTrue(i);
        assert false;
      }
    }
    if FullStateKey in args && args[FullStateKey].Str? && exists i: nat :: PaddedTrue(args[FullStateKey].s, i) {
      var i: nat :| PaddedTrue(s, i);
      PaddedIsTrue(s, i);
    }
  }

  /** Text that trims and lower-cases to "true" holds it between white-space padding. */
  lemma TrueIsPadded(s: string) returns (i: nat)
    requires ToLower(TrimSpace(s)) == "true"
    ensures PaddedTrue(s, i)
  {
    var t := TrimSpace(s);
    i := TrimStart(s);
    assert |t| == 4;
    assert t == s[i..i + 4];
  }

  /** Text holding "true" between white-space padding trims and lower-cases to "true". */
  lemma PaddedIsTrue(s: string, i: nat)
    requires PaddedTrue(s, i)
    ensures ToLower(TrimSpace(s)) == "true"
  {
    assert ToLower(s[i..i + 4])[0] == LowerChar(s[i]);
    assert ToLower(s[i..i + 4])[3] == LowerChar(s[i + 3]);
    assert Trimmed(s[i..i + 4]);
    TrimSpaceOfPadded(s, i, i + 4);
  }

  /** The default "false" holds no capitalisation of "true". */
  lemma DefaultIsNotTrue(i: nat)
    ensures !PaddedTrue("false", i)
  {
    if i + 4 <= 5 {
      assert ToLower("false"[i..i + 4])[0] == LowerChar("false"[i]);
    }
  }

  /** One state output as the handler sees it. */
  datatype Output = Output(name: string, typ: string, sensitive: bool, value: Value)

  /** One bullet per output; a sensitive output shows `<sensitive>` in place of its value. */
  function OutputLine(o: Output): string {
    if o.sensitive then "- **" + o.name + "** (sensitive, type: " + o.typ + "): `<sensitive>`\n"
    else "- **" + o.name + "** (type: " + o.typ + "): " + FormatOutputValue(o.value) + "\n"
  }

  function OutputLines(outputs: seq<Output>): string
    decreases |outputs|
  {
    if outputs == [] then "" else OutputLine(outputs[0]) + OutputLines(outputs[1..])
  }

  /** Two output lists that differ only in the values of sensitive outputs. */
  predicate SameUpToSecrets(a: seq<Output>, b: seq<Output>) {
    |a| == |b|
    && forall i | 0 <= i < |a| ::
      a[i].name == b[i].name && a[i].typ == b[i].typ && a[i].sensitive == b[i].sensitive
      && (!a[i].sensitive ==> a[i].value == b[i].value)
  }

  /** A sensitive value never reaches the text: changing only secret values leaves the
      outputs listing exactly as it was. */
  lemma {:induction false} SecretsNeverShown(a: seq<Output>, b: seq<Output>)
    requires SameUpToSecrets(a, b)
    ensures OutputLines(a) == OutputLines(b)
    decreases |a|
  {
    if a != [] {
      assert SameUpToSecrets(a[1..], b[1..]) by {
        forall i | 0 <= i < |a| - 1
          ensures a[1..][i].name == b[1..][i].name && a[1..][i].typ == b[1..][i].typ
          ensures a[1..][i].sensitive == b[1..][i].sensitive
          ensures !a[1..][i].sensitive ==> a[1..][i].value == b[1..][i].value
        {
          assert a[1..][i] == a[i + 1] && b[1..][i] == b[i + 1];
        }
      }
      SecretsNeverShown(a[1..], b[1..]);
      assert OutputLine(a[0]) == OutputLine(b[0]);
    }
  }

  /** A non-sensitive output's line ends with its displayed value. */
  lemma PublicValueShown(o: Output)
    requires !o.sensitive
    ensures var line := OutputLine(o);
      var shown := FormatOutputValue(o.value) + "\n";
      |line| >= |shown| && line[|line| - |shown|..] == shown
  {
  }

  const OutputsHeading: string := "\n## State Outputs\n\n"
  const NoOutputs: string := "No outputs defined.\n"

  /** The outputs section. The outputs included with the state version are listed when
      there are any; otherwise the separately listed ones (`None` when listing them
      failed), and when neither gives anything, a line saying there are none. */
  function OutputsSection(included: seq<Output>, listed: Option<seq<Output>>): string {
    if |included| > 0 then OutputsHeading + OutputLines(included)
    else if listed.Some? && |listed.value| > 0 then OutputsHeading + OutputLines(listed.value)
    else OutputsHeading + NoOutputs
  }

  /** The separate listing is consulted only when the state version carried no outputs,
      and "No outputs defined." is written exactly when neither source has any. */
  lemma OutputsSectionSource(included: seq<Output>, listed: Option<seq<Output>>, other: Option<seq<Output>>)
    ensures |included| > 0 ==> OutputsSection(included, listed) == OutputsSection(included, other)
    ensures OutputsSection(included, listed) == OutputsHeading + NoOutputs <==>
      |included| == 0 && (listed.None? || |listed.value| == 0)
  {
    assert NoOutputs[0] == 'N';
    if |included| == 0 && listed.Some? && |listed.value| > 0 {
      OutputLinesStart(listed.value);
      assert (OutputsHeading + OutputLines(listed.value))[|OutputsHeading|] == '-';
    }
    if |included| > 0 {
      OutputLinesStart(included);
      assert (OutputsHeading + OutputLines(included))[|OutputsHeading|] == '-';
    }
  }

  /** A non-empty outputs listing starts with a bullet. */
  lemma OutputLinesStart(outputs: seq<Output>)
    requires outputs != []
    ensures |OutputLines(outputs)| > 0 && OutputLines(outputs)[0] == '-'
  {
    assert OutputLines(outputs) == OutputLine(outputs[0]) + OutputLines(outputs[1..]);
  }

  /** One managed resource of the state version. */
  datatype StateResource = StateResource(typ: string, name: string, moduleAddress: string, provider: string, count: int)

  /** The module cell: resources of the root module have an empty module address. */
  function ModuleCell(address: string): (r: string)
    ensures r != ""
    ensures r == address <==> address != ""
  {
    if address == "" then "(root)" else address
  }

  function ResourceRow(res: StateResource): string {
    "| " + res.typ + " | " + res.name + " | " + ModuleCell(res.moduleAddress) + " | " + res.provider
    + " | " + IntToString(res.count) + " |\n"
  }

  function ResourceRows(resources: seq<StateResource>): string
    decreases |resources|
  {
    if resources == [] then "" else ResourceRow(resources[0]) + ResourceRows(resources[1..])
  }

  const ResourcesHeading: string :=
    "\n## Managed Resources\n\n| Type | Name | Module | Provider | Count |\n|------|------|--------|----------|-------|\n"

  /** The resource table, left out entirely when the state has no resources. */
  function ResourcesSection(resources: seq<StateResource>): string {
    if |resources| > 0 then ResourcesHeading + ResourceRows(resources) else ""
  }

  /** The table body has one line per resource: its line breaks are one per row, plus
      any that the resources' own fields carry. */
  lemma {:induction false} ResourceRowsOnePerResource(resources: seq<StateResource>)
    ensures Occurrences(ResourceRows(resources), '\n') == |resources| + NewlinesIn(resources)
    decreases |resources|
  {
    if resources != [] {
      ResourceRowsOnePerResource(resources[1..]);
      OccurrencesAppend(ResourceRow(resources[0]), ResourceRows(resources[1..]), '\n');
      RowNewlines(resources[0]);
    }
  }

  /** Line breaks inside the resources' own fields, which would split their rows. */
  function NewlinesIn(resources: seq<StateResource>): nat
    decreases |resources|
  {
    if resources == [] then 0
    else
      var r := resources[0];
      Occurrences(r.typ, '\n') + Occurrences(r.name, '\n') + Occurrences(ModuleCell(r.moduleAddress), '\n')
      + Occurrences(r.provider, '\n') + NewlinesIn(resources[1..])
  }

  lemma RowNewlines(res: StateResource)
    ensures Occurrences(ResourceRow(res), '\n')
      == 1 + Occurrences(res.typ, '\n') + Occurrences(res.name, '\n')
         + Occurrences(ModuleCell(res.moduleAddress), '\n') + Occurrences(res.provider, '\n')
  {
    var count := IntToString(res.count);
    assert '\n' !in count by {
      if res.count < 0 {
        assert count == "-" + NatToString(-res.count);
      }
      forall i | 0 <= i < |count| ensures count[i] != '\n' {
        if res.count < 0 && i > 0 {
          assert count[i] == NatToString(-res.count)[i - 1];
        }
      }
    }
    NoOccurrences(count, '\n');
    OccurrencesAppend("| ", res.typ, '\n');
    OccurrencesAppend("| " + res.typ, " | ", '\n');
    OccurrencesAppend("| " + res.typ + " | ", res.name, '\n');
    OccurrencesAppend("| " + res.typ + " | " + res.name, " | ", '\n');
    OccurrencesAppend("| " + res.typ + " | " + res.name + " | ", ModuleCell(res.moduleAddress), '\n');
    OccurrencesAppend("| " + res.typ + " | " + res.name + " | " + ModuleCell(res.moduleAddress), " | ", '\n');
    OccurrencesAppend("| " + res.typ + " | " + res.name + " | " + ModuleCell(res.moduleAddress) + " | ", res.provider, '\n');
    OccurrencesAppend("| " + res.typ + " | " + res.name + " | " + ModuleCell(res.moduleAddress) + " | " + res.provider, " | ", '\n');
    OccurrencesAppend("| " + res.typ + " | " + res.name + " | " + ModuleCell(res.moduleAddress) + " | " + res.provider + " | ", count, '\n');
    OccurrencesAppend("| " + res.typ + " | " + res.name + " | " + ModuleCell(res.moduleAddress) + " | " + res.provider + " | " + count, " |\n", '\n');
  }

  /** What downloading the full JSON state gave: its pretty-printed text, a failed
      download, or a body that did not decode as a JSON object. */
  datatype Download = Pretty(text: string) | DownloadFailed | NotAnObject

  const DownloadFailedNote: string := "\n> **Note:** Could not download the full JSON state representation.\n"

  /** The optional full-state block: only when requested and the state version has a
      download URL; a failed download is noted, an undecodable body is skipped silently. */
  function FullStateSection(requested: bool, url: string, download: Download): string {
    if requested && url != "" then
      match download
      case DownloadFailed => DownloadFailedNote
      case NotAnObject => ""
      case Pretty(text) => "\n## Full JSON State\n\n```json\n" + EnsureNewline(text) + "```\n"
    else ""
  }

  /** Nothing is downloaded or shown unless the block was requested and a URL exists; a
      shown state closes its fence on a line of its own. */
  lemma FullStateSectionGated(requested: bool, url: string, download: Download, other: Download)
    ensures !requested || url == "" ==> FullStateSection(requested, url, download) == ""
    ensures FullStateSection(requested, url, download) != "" ==> requested && url != ""
    ensures requested && url != "" && download.Pretty? ==>
      var r := FullStateSection(requested, url, download);
      |r| >= 5 && r[|r| - 4..] == "```\n" && r[|r| - 5] == '\n'
  {
    if requested && url != "" && download.Pretty? {
      var r := FullStateSection(requested, url, download);
      var body := EnsureNewline(download.text);
      assert r == "\n## Full JSON State\n\n```json\n" + body + "```\n";
      assert r[|r| - 5] == body[|body| - 1];
    }
  }
}

=== FILE: encoding.dfy ===
/** The canonical JSON encoding is injective: two values with the same encoding are the
    same value. So `valuesEqual`, which compares encodings, is plain equality of values,
    and the attribute diff reports exactly the keys whose values differ.

    The proof reads an encoding from the front. The first character fixes the kind of
    value, and each kind's text ends where the text that may follow it begins: after an
    item there comes `,`, `]` or `}`, after a key there comes `:`. */
module Encoding {
  import opened Text
  import opened StringOrder
  import opened Values

  /** A character that may follow an encoded value inside an enclosing encoding. */
  predicate IsCloser(c: char) {
    c == ',' || c == ']' || c == '}'
  }

  /** Text that may follow a complete encoded value: nothing, or a closer. */
  predicate Follows(r: string) {
    r == [] || IsCloser(r[0])
  }

  /** Two texts that agree after equal-length heads have equal heads and equal tails. */
  lemma SplitEqual(x: string, r1: string, y: string, r2: string)
    requires x + r1 == y + r2 && |x| == |y|
    ensures x == y && r1 == r2
  {
    assert x == (x + r1)[..|x|] && y == (y + r2)[..|y|];
    assert r1 == (x + r1)[|x|..] && r2 == (y + r2)[|y|..];
  }

  /** The first character of every encoding is one of `n t f - 0-9 " [ {`, never a closer. */
  lemma EncodeHead(v: Value)
    ensures var c := Encode(v)[0];
      && !IsCloser(c)
      && (v.Null? <==> c == 'n')
      && (v.Bool? <==> c == 't' || c == 'f')
      && (v.Num? <==> c == '-' || IsDigit(c))
      && (v.Str? <==> c == '"')
      && (v.Arr? <==> c == '[')
      && (v.Obj? <==> c == '{')
  {
    match v
    case Num(n) =>
      if n < 0 {
        assert Encode(v)[0] == '-';
      } else {
        assert IsDigit(NatToString(n)[0]);
      }
    case Str(s) =>
    case Arr(items) =>
      assert Encode(v)[0] == '[';
    case Obj(m) =>
      assert Encode(v)[0] == '{';
    case _ =>
  }

  // Numbers

  /** A digit string followed by a non-digit: equal texts have equal digit runs. */
  lemma {:induction false} DigitsPrefix(x: string, r1: string, y: string, r2: string)
    requires AllDigits(x) && AllDigits(y)
    requires r1 == [] || !IsDigit(r1[0])
    requires r2 == [] || !IsDigit(r2[0])
    requires x + r1 == y + r2
    ensures x == y && r1 == r2
  {
    assert r1 != [] ==> (x + r1)[|x|] == r1[0];
    assert r2 != [] ==> (y + r2)[|y|] == r2[0];
    assert |x| == |y|;
    SplitEqual(x, r1, y, r2);
  }

  lemma NatToStringInjective(n: nat, m: nat)
    requires NatToString(n) == NatToString(m)
    ensures n == m
  {
    NatToStringRoundTrip(n);
    NatToStringRoundTrip(m);
  }

  lemma NumPrefix(n: int, m: int, r1: string, r2: string)
    requires Follows(r1) && Follows(r2)
    requires Encode(Num(n)) + r1 == Encode(Num(m)) + r2
    ensures n == m && r1 == r2
  {
    var x, y := NatToString(if n < 0 then -n else n), NatToString(if m < 0 then -m else m);
    assert IsDigit(x[0]) && IsDigit(y[0]);
    assert Follows(r1) ==> r1 == [] || !IsDigit(r1[0]);
    assert Follows(r2) ==> r2 == [] || !IsDigit(r2[0]);
    assert (Encode(Num(n)) + r1)[0] == Encode(Num(n))[0];
    assert (Encode(Num(m)) + r2)[0] == Encode(Num(m))[0];
    if n < 0 && m < 0 {
      assert Encode(Num(n)) + r1 == "-" + (x + r1);
      assert Encode(Num(m)) + r2 == "-" + (y + r2);
      assert x + r1 == y + r2 by {
        SplitEqual("-", x + r1, "-", y + r2);
      }
      DigitsPrefix(x, r1, y, r2);
      NatToStringInjective(-n, -m);
    } else if n >= 0 && m >= 0 {
      DigitsPrefix(x, r1, y, r2);
      NatToStringInjective(n, m);
    }
  }

  // Strings

  /** Escaped text followed by a closing quote: the quote that ends the literal is the
      first one not preceded by a backslash, so equal texts have equal contents. */
  lemma {:induction false} EscapePrefix(s: string, t: string, r1: string, r2: string)
    requires Escape(s) + ("\"" + r1) == Escape(t) + ("\"" + r2)
    ensures s == t && r1 == r2
    decreases |s|
  {
    if s == [] && t == [] {
      assert Escape(s) + ("\"" + r1) == "\"" + r1;
      assert Escape(t) + ("\"" + r2) == "\"" + r2;
      SplitEqual("\"", r1, "\"", r2);
    } else if s == [] {
      EscapeStart(t, "\"" + r2);
    } else if t == [] {
      EscapeStart(s, "\"" + r1);
    } else {
      var a, b := EscapeChar(s[0]), EscapeChar(t[0]);
      assert Escape(s) + ("\"" + r1) == a + (Escape(s[1..]) + ("\"" + r1));
      assert Escape(t) + ("\"" + r2) == b + (Escape(t[1..]) + ("\"" + r2));
      EscapeCharPrefix(s[0], t[0], Escape(s[1..]) + ("\"" + r1), Escape(t[1..]) + ("\"" + r2));
      EscapePrefix(s[1..], t[1..], r1, r2);
      assert s == [s[0]] + s[1..] && t == [t[0]] + t[1..];
    }
  }

  /** Non-empty escaped text never starts with a bare quote. */
  lemma EscapeStart(s: string, r: string)
    requires s != []
    ensures (Escape(s) + r)[0] != '"'
  {
    assert (Escape(s) + r)[0] == EscapeChar(s[0])[0];
  }

  /** One escaped character at the front of equal texts: the characters and the rests agree. */
  lemma EscapeCharPrefix(c: char, d: char, r1: string, r2: string)
    requires EscapeChar(c) + r1 == EscapeChar(d) + r2
    ensures c == d && r1 == r2
  {
    var a, b := EscapeChar(c), EscapeChar(d);
    assert (a + r1)[0] == a[0] && (b + r2)[0] == b[0];
    assert |a| == |b|;
    if |a| == 2 {
      assert (a + r1)[1] == a[1] && (b + r2)[1] == b[1];
    }
    SplitEqual(a, r1, b, r2);
  }

  /** A quoted literal ends at its closing quote, whatever follows it. */
  lemma QuotePrefix(s: string, t: string, r1: string, r2: string)
    requires Quote(s) + r1 == Quote(t) + r2
    ensures s == t && r1 == r2
  {
    assert Quote(s) + r1 == "\"" + (Escape(s) + ("\"" + r1));
    assert Quote(t) + r2 == "\"" + (Escape(t) + ("\"" + r2));
    SplitEqual("\"", Escape(s) + ("\"" + r1), "\"", Escape(t) + ("\"" + r2));
    EscapePrefix(s, t, r1, r2);
  }

  // Lists and objects

  /** The text after the first item of a non-empty list, up to and past its `]`. */
  function ItemsAfterFirst(p: Value, xs: seq<Value>, rest: string): string
    requires xs != [] && forall i | 0 <= i < |xs| :: xs[i] < p
  {
    if |xs| == 1 then "]" + rest else "," + (Join(EncodeItems(p, xs[1..]), ",") + ("]" + rest))
  }

  /** A non-empty list body starts with its first item's encoding, and a closer follows it. */
  lemma ItemsFront(p: Value, xs: seq<Value>, rest: string)
    requires xs != [] && forall i | 0 <= i < |xs| :: xs[i] < p
    ensures var t := ItemsAfterFirst(p, xs, rest);
      && Join(EncodeItems(p, xs), ",") + ("]" + rest) == Encode(xs[0]) + t
      && Follows(t) && (t[0] == ']' <==> |xs| == 1)
  {
    var e := EncodeItems(p, xs);
    if |xs| > 1 {
      assert e[1..] == EncodeItems(p, xs[1..]);
      Regroup(e[0], Join(e[1..], ","), "]" + rest);
    }
  }

  /** The text after the first member of a non-empty object, up to and past its `}`. */
  function MembersAfterFirst(p: Value, m: map<string, Value>, keys: seq<string>, rest: string): string
    requires p == Obj(m) && keys != [] && forall i | 0 <= i < |keys| :: keys[i] in m
  {
    if |keys| == 1 then "}" + rest else "," + (Join(EncodeMembers(p, m, keys[1..]), ",") + ("}" + rest))
  }

  /** A non-empty object body starts with its first key, quoted, a colon and the key's
      value, and a closer follows the value. */
  lemma MembersFront(p: Value, m: map<string, Value>, keys: seq<string>, rest: string)
    requires p == Obj(m) && keys != [] && forall i | 0 <= i < |keys| :: keys[i] in m
    ensures var t := MembersAfterFirst(p, m, keys, rest);
      && Join(EncodeMembers(p, m, keys), ",") + ("}" + rest) == Quote(keys[0]) + (":" + (Encode(m[keys[0]]) + t))
      && Follows(t) && (t[0] == '}' <==> |keys| == 1)
  {
    var e := EncodeMembers(p, m, keys);
    var q, v := Quote(keys[0]), Encode(m[keys[0]]);
    var t := MembersAfterFirst(p, m, keys, rest);
    assert e[0] == q + ":" + v;
    if |keys| == 1 {
      assert Join(e, ",") + ("}" + rest) == (q + ":" + v) + t;
    } else {
      var j := Join(EncodeMembers(p, m, keys[1..]), ",");
      assert e[1..] == EncodeMembers(p, m, keys[1..]);
      assert Join(e, ",") == (q + ":" + v) + "," + j;
      assert t == "," + (j + ("}" + rest));
      Regroup(q + ":" + v, j, "}" + rest);
    }
    Regroup3(q, v, t);
  }

  lemma Regroup(x: string, j: string, r: string)
    ensures x + "," + j + r == x + ("," + (j + r))
  {
  }

  lemma Bracketed(o: string, j: string, c: string, r: string)
    ensures o + j + c + r == o + (j + (c + r))
  {
  }

  lemma Regroup3(q: string, v: string, t: string)
    ensures (q + ":" + v) + t == q + (":" + (v + t))
  {
  }

  /** An encoding followed by text that may follow it determines both the value and the
      text after it. */
  lemma {:induction false} EncodePrefix(a: Value, b: Value, r1: string, r2: string)
    requires Follows(r1) && Follows(r2)
    requires Encode(a) + r1 == Encode(b) + r2
    ensures a == b && r1 == r2
    decreases a, 2
  {
    EncodeHead(a);
    EncodeHead(b);
    assert (Encode(a) + r1)[0] == Encode(a)[0] && (Encode(b) + r2)[0] == Encode(b)[0];
    match a
    case Null =>
      SplitEqual(Encode(a), r1, Encode(b), r2);
    case Bool(x) =>
      SplitEqual(Encode(a), r1, Encode(b), r2);
    case Num(n) =>
      NumPrefix(n, b.n, r1, r2);
    case Str(x) =>
      QuotePrefix(x, b.s, r1, r2);
    case Arr(xs) =>
      ArrPrefix(a, b, r1, r2);
    case Obj(ma) =>
      ObjPrefix(a, b, r1, r2);
  }

  lemma {:induction false} ArrPrefix(a: Value, b: Value, r1: string, r2: string)
    requires a.Arr? && b.Arr?
    requires Encode(a) + r1 == Encode(b) + r2
    ensures a == b && r1 == r2
    decreases a, 1
  {
    var xs, ys := a.items, b.items;
    var ja, jb := Join(EncodeItems(a, xs), ","), Join(EncodeItems(b, ys), ",");
    assert Encode(a) == "[" + ja + "]" && Encode(b) == "[" + jb + "]";
    Bracketed("[", ja, "]", r1);
    Bracketed("[", jb, "]", r2);
    SplitEqual("[", ja + ("]" + r1), "[", jb + ("]" + r2));
    ItemsPrefix(a, xs, b, ys, r1, r2);
  }

  lemma {:induction false} ObjPrefix(a: Value, b: Value, r1: string, r2: string)
    requires a.Obj? && b.Obj?
    requires Encode(a) + r1 == Encode(b) + r2
    ensures a == b && r1 == r2
    decreases a, 1
  {
    var ma, mb := a.fields, b.fields;
    var ka, kb := SortedKeys(ma.Keys), SortedKeys(mb.Keys);
    var ja, jb := Join(EncodeMembers(a, ma, ka), ","), Join(EncodeMembers(b, mb, kb), ",");
    assert Encode(a) == "{" + ja + "}" && Encode(b) == "{" + jb + "}";
    Bracketed("{", ja, "}", r1);
    Bracketed("{", jb, "}", r2);
    SplitEqual("{", ja + ("}" + r1), "{", jb + ("}" + r2));
    MembersPrefix(a, ma, ka, b, mb, kb, r1, r2);
    SameMembers(ma, mb);
  }

  /** Maps with the same sorted keys and the same value at each of them are equal. */
  lemma SameMembers(ma: map<string, Value>, mb: map<string, Value>)
    requires SortedKeys(ma.Keys) == SortedKeys(mb.Keys)
    requires var ks := SortedKeys(ma.Keys);
      forall i | 0 <= i < |ks| :: ks[i] in ma && ks[i] in mb && ma[ks[i]] == mb[ks[i]]
    ensures ma == mb
  {
    var ks := SortedKeys(ma.Keys);
    assert ma.Keys == mb.Keys;
    forall k | k in ma
      ensures ma[k] == mb[k]
    {
      var i :| 0 <= i < |ks| && ks[i] == k;
    }
  }

  lemma {:induction false} ItemsPrefix(pa: Value, xs: seq<Value>, pb: Value, ys: seq<Value>, r1: string, r2: string)
    requires forall i | 0 <= i < |xs| :: xs[i] < pa
    requires forall i | 0 <= i < |ys| :: ys[i] < pb
    requires Join(EncodeItems(pa, xs), ",") + ("]" + r1) == Join(EncodeItems(pb, ys), ",") + ("]" + r2)
    ensures xs == ys && r1 == r2
    decreases pa, 0, |xs|
  {
    if xs != [] {
      ItemsFront(pa, xs, r1);
      EncodeHead(xs[0]);
      assert (Encode(xs[0]) + ItemsAfterFirst(pa, xs, r1))[0] == Encode(xs[0])[0];
    } else {
      assert Join(EncodeItems(pa, xs), ",") + ("]" + r1) == "]" + r1;
    }
    if ys != [] {
      ItemsFront(pb, ys, r2);
      EncodeHead(ys[0]);
      assert (Encode(ys[0]) + ItemsAfterFirst(pb, ys, r2))[0] == Encode(ys[0])[0];
    } else {
      assert Join(EncodeItems(pb, ys), ",") + ("]" + r2) == "]" + r2;
    }
    if xs == [] && ys == [] {
      SplitEqual("]", r1, "]", r2);
    } else if xs != [] && ys != [] {
      var ta, tb := ItemsAfterFirst(pa, xs, r1), ItemsAfterFirst(pb, ys, r2);
      EncodePrefix(xs[0], ys[0], ta, tb);
      if |xs| == 1 {
        SplitEqual("]", r1, "]", r2);
      } else {
        SplitEqual(",", Join(EncodeItems(pa, xs[1..]), ",") + ("]" + r1),
                   ",", Join(EncodeItems(pb, ys[1..]), ",") + ("]" + r2));
        ItemsPrefix(pa, xs[1..], pb, ys[1..], r1, r2);
        assert xs == [xs[0]] + xs[1..] && ys == [ys[0]] + ys[1..];
      }
    }
  }

  lemma {:induction false} MembersPrefix(pa: Value, ma: map<string, Value>, ka: seq<string>,
                                         pb: Value, mb: map<string, Value>, kb: seq<string>,
                                         r1: string, r2: string)
    requires pa == Obj(ma) && forall i | 0 <= i < |ka| :: ka[i] in ma
    requires pb == Obj(mb) && forall i | 0 <= i < |kb| :: kb[i] in mb
    requires Join(EncodeMembers(pa, ma, ka), ",") + ("}" + r1) == Join(EncodeMembers(pb, mb, kb), ",") + ("}" + r2)
    ensures ka == kb && r1 == r2
    ensures forall i | 0 <= i < |ka| :: ma[ka[i]] == mb[kb[i]]
    decreases pa, 0, |ka|
  {
    if ka != [] {
      MembersFront(pa, ma, ka, r1);
      assert (Quote(ka[0]) + (":" + (Encode(ma[ka[0]]) + MembersAfterFirst(pa, ma, ka, r1))))[0] == '"';
    } else {
      assert Join(EncodeMembers(pa, ma, ka), ",") + ("}" + r1) == "}" + r1;
    }
    if kb != [] {
      MembersFront(pb, mb, kb, r2);
      assert (Quote(kb[0]) + (":" + (Encode(mb[kb[0]]) + MembersAfterFirst(pb, mb, kb, r2))))[0] == '"';
    } else {
      assert Join(EncodeMembers(pb, mb, kb), ",") + ("}" + r2) == "}" + r2;
    }
    if ka == [] && kb == [] {
      SplitEqual("}", r1, "}", r2);
    } else if ka != [] && kb != [] {
      var ta, tb := MembersAfterFirst(pa, ma, ka, r1), MembersAfterFirst(pb, mb, kb, r2);
      var va, vb := ma[ka[0]], mb[kb[0]];
      QuotePrefix(ka[0], kb[0], ":" + (Encode(va) + ta), ":" + (Encode(vb) + tb));
      SplitEqual(":", Encode(va) + ta, ":", Encode(vb) + tb);
      EncodePrefix(va, vb, ta, tb);
      if |ka| == 1 {
        SplitEqual("}", r1, "}", r2);
      } else {
        SplitEqual(",", Join(EncodeMembers(pa, ma, ka[1..]), ",") + ("}" + r1),
                   ",", Join(EncodeMembers(pb, mb, kb[1..]), ",") + ("}" + r2));
        MembersPrefix(pa, ma, ka[1..], pb, mb, kb[1..], r1, r2);
        assert ka == [ka[0]] + ka[1..] && kb == [kb[0]] + kb[1..];
        assert forall i | 1 <= i < |ka| :: ka[i] == ka[1..][i - 1];
      }
    }
  }

  /** `valuesEqual` is equality: values compare equal exactly when they are the same
      value, so comparing encodings neither merges distinct values nor splits equal ones. */
  lemma ValuesEqualIsEquality(a: Value, b: Value)
    ensures ValuesEqual(a, b) <==> a == b
  {
    if ValuesEqual(a, b) {
      assert Encode(a) + [] == Encode(b) + [];
      EncodePrefix(a, b, [], []);
    }
  }
}

=== FILE: log_section.dfy ===
/** The log tail that closes both the plan summary (`buildPlanMetadataResponse`) and
    the apply report (`get_apply_details`): which status lets logs be fetched, what is
    written when fetching or reading them fails, and the truncated, fenced log block. */
module LogSection {
  import opened Text

  /** Longest log shown; a longer log keeps only its last `MaxLogSize` characters. */
  const MaxLogSize: nat := 50000

  const TruncationNotice: string :=
    "*(" + "Log output truncated -- showing last portion which typically contains errors)*\n\n"

  const Fence: string := "```\n"

  /** The part of a log that is shown: all of it, or its last `MaxLogSize` characters. */
  function TailLog(s: string): (r: string)
    ensures |r| == if |s| > MaxLogSize then MaxLogSize else |s|
    ensures r == s[|s| - |r|..]
  {
    if |s| > MaxLogSize then s[|s| - MaxLogSize..] else s
  }

  function SectionHeading(title: string): string {
    "\n## " + title + "\n\n"
  }

  /** A non-empty log under its heading: the truncation notice when it was cut, then the
      shown tail in a plain fenced block. */
  function RenderLog(title: string, text: string): string {
    SectionHeading(title)
    + (if |text| > MaxLogSize then TruncationNotice else "")
    + Fence + EnsureNewline(TailLog(text)) + Fence
  }

  /** However long the log, the block stays within a fixed size. */
  lemma RenderLogBounded(title: string, text: string)
    ensures |RenderLog(title, text)| <= |SectionHeading(title)| + |TruncationNotice| + 2 * |Fence| + MaxLogSize + 1
  {
  }

  /** A log that fits and already ends its last line is shown verbatim, without notice. */
  lemma RenderLogWhole(title: string, text: string)
    requires |text| <= MaxLogSize && EndsWithNewline(text)
    ensures RenderLog(title, text) == SectionHeading(title) + Fence + text + Fence
  {
  }

  /** A log that does not fit is announced as truncated, and its last `MaxLogSize`
      characters follow the opening fence. */
  lemma RenderLogTruncated(title: string, text: string)
    requires |text| > MaxLogSize
    ensures var r := RenderLog(title, text);
      var h := SectionHeading(title) + TruncationNotice + Fence;
      |r| >= |h| + MaxLogSize
      && r[..|h|] == h
      && r[|h|..|h| + MaxLogSize] == text[|text| - MaxLogSize..]
  {
    var r := RenderLog(title, text);
    var h := SectionHeading(title) + TruncationNotice + Fence;
    var body := EnsureNewline(TailLog(text));
    assert r == h + body + Fence;
    assert body[..MaxLogSize] == TailLog(text);
  }

  /** The notice appears exactly when the log was cut. */
  lemma RenderLogNoticeIffTruncated(title: string, text: string)
    ensures var h := SectionHeading(title);
      var r := RenderLog(title, text);
      |r| >= |h| + |Fence|
      && (r[|h|..|h| + |Fence|] == Fence <==> |text| <= MaxLogSize)
  {
    var h := SectionHeading(title);
    var r := RenderLog(title, text);
    if |text| > MaxLogSize {
      assert r == h + TruncationNotice + Fence + EnsureNewline(TailLog(text)) + Fence;
      assert r[|h|..|h| + |Fence|] == TruncationNotice[..4];
      NoticeIsNotFence();
    } else {
      assert r[|h|..|h| + |Fence|] == Fence;
    }
  }

  lemma NoticeIsNotFence()
    ensures TruncationNotice[..4] != Fence
  {
    assert TruncationNotice[0] == '*';
  }

  /** Statuses at which the service has no logs yet, so none are fetched. */
  predicate IsWaiting(status: string) {
    status == "pending" || status == "queued" || status == "unreachable"
  }

  /** What fetching and reading a log gave: its text, or a failure of either step. */
  datatype LogFetch = Logs(text: string) | FetchFailed | ReadFailed

  function ApplyWaitingNote(status: string): string {
    "\n> **Note:** Apply logs are not yet available because the apply status is `" + status + "`. "
    + "Re-run this tool after the apply has started or completed to see the full logs.\n"
  }

  const ApplyFetchFailedNote: string := "\n> **Note:** Could not retrieve apply logs.\n"
  const ApplyReadFailedNote: string := "\n> **Note:** Could not read apply logs.\n"
  const ApplyNoLogs: string := "\n## Apply Logs\n\nNo log output available.\n"

  /** The log part of the apply report. A waiting apply gets a note naming its status and
      its logs are never fetched; otherwise each failure gets its own note, an empty log
      says so, and a non-empty one is rendered under "Apply Logs". */
  function ApplyLogSection(status: string, fetch: LogFetch): string {
    if IsWaiting(status) then ApplyWaitingNote(status)
    else
      match fetch
      case FetchFailed => ApplyFetchFailedNote
      case ReadFailed => ApplyReadFailedNote
      case Logs(text) => if text == "" then ApplyNoLogs else RenderLog("Apply Logs", text)
  }

  /** The apply report always ends with something about the logs: for a waiting apply the
      note naming its status, whatever a fetch would have given; otherwise the failure
      note, "No log output available." for an empty log, or the rendered log. */
  lemma ApplyLogSectionCases(status: string, fetch: LogFetch, other: LogFetch)
    ensures ApplyLogSection(status, fetch) != ""
    ensures IsWaiting(status) ==> ApplyLogSection(status, fetch) == ApplyLogSection(status, other)
    ensures IsWaiting(status) ==> ApplyLogSection(status, fetch) == ApplyWaitingNote(status)
    ensures !IsWaiting(status) && fetch == Logs("") ==> ApplyLogSection(status, fetch) == ApplyNoLogs
    ensures !IsWaiting(status) && fetch.Logs? && fetch.text != "" ==>
      ApplyLogSection(status, fetch) == RenderLog("Apply Logs", fetch.text)
    ensures !IsWaiting(status) && fetch == FetchFailed ==> ApplyLogSection(status, fetch) == ApplyFetchFailedNote
    ensures !IsWaiting(status) && fetch == ReadFailed ==> ApplyLogSection(status, fetch) == ApplyReadFailedNote
  {
  }

  function PlanWaitingNote(status: string): string {
    "\n> **Note:** Detailed resource changes are not yet available because the plan status is `" + status + "`. "
    + "Re-run this tool after the plan has finished to see the full execution plan.\n"
  }

  const PlanFetchFailedNote: string := "\n> **Note:** The plan errored but logs could not be retrieved.\n"
  const PlanNoLogsNote: string := "\n> **Note:** The plan errored but no log output is available.\n"

  /** The log part of the plan summary. A waiting plan gets a note naming its status; a
      failed fetch or an empty log is mentioned only for an errored plan; a failed read
      is not mentioned at all; a non-empty log is rendered under "Plan Logs". */
  function PlanLogSection(status: string, fetch: LogFetch): string {
    if IsWaiting(status) then PlanWaitingNote(status)
    else
      match fetch
      case FetchFailed => if status == "errored" then PlanFetchFailedNote else ""
      case ReadFailed => ""
      case Logs(text) =>
        if text != "" then RenderLog("Plan Logs", text)
        else if status == "errored" then PlanNoLogsNote
        else ""
  }

  /** The plan summary says nothing about logs exactly when the plan is past waiting and
      either the read failed, or nothing came back for a plan that did not error. */
  lemma PlanLogSectionSilent(status: string, fetch: LogFetch)
    ensures PlanLogSection(status, fetch) == "" <==>
      !IsWaiting(status)
      && (fetch == ReadFailed
          || (status != "errored" && (fetch == FetchFailed || fetch == Logs(""))))
  {
  }

  /** A waiting plan gets the note naming its status, whatever the logs; a non-empty log
      is always shown once the plan is past waiting, whatever its status; an errored plan
      whose logs could not be fetched, or came back empty, gets its own note. */
  lemma PlanLogSectionCases(status: string, fetch: LogFetch, other: LogFetch)
    ensures IsWaiting(status) ==> PlanLogSection(status, fetch) == PlanLogSection(status, other)
    ensures IsWaiting(status) ==> PlanLogSection(status, fetch) == PlanWaitingNote(status)
    ensures status == "errored" && fetch == FetchFailed ==> PlanLogSection(status, fetch) == PlanFetchFailedNote
    ensures status == "errored" && fetch == Logs("") ==> PlanLogSection(status, fetch) == PlanNoLogsNote
    ensures !IsWaiting(status) && fetch.Logs? && fetch.text != "" ==>
      PlanLogSection(status, fetch) == RenderLog("Plan Logs", fetch.text)
  {
  }
}

=== FILE: plan.dfy ===
/** The plan summary around the attribute diff: `countActions`, the summary line and
    the no-op filtering of `buildFormattedPlanResponse`, and `writeResourceChange`. */
module Plan {
  import opened Text
  import opened Values
  import opened Actions
  import opened AttributeDiff

  /** One entry of the plan's `resource_changes`, reduced to what the rendering reads. */
  datatype ResourceChange = ResourceChange(
    address: string,
    actions: seq<string>,
    before: Value,
    after: Value,
    actionReason: string)

  /** The counter `countActions` increments for a summary, if any. */
  datatype Bucket = Adds | Updates | Destroys | Replaces | NoOps | Uncounted

  function BucketOf(summary: string): Bucket {
    match summary
    case "create" => Adds
    case "update" => Updates
    case "delete" => Destroys
    case "replace (delete, create)" => Replaces
    case "replace (create, delete)" => Replaces
    case "no-op" => NoOps
    case "read" => NoOps
    case _ => Uncounted
  }

  /** The summary is a joined string, so a two-tag list whose tags happen to contain the
      ", " of the join is indistinguishable from the one-tag replacement verb: both are
      counted as replacements and given the replacement symbol. */
  lemma JoinedTagsLookLikeReplace()
    ensures SummarizeActions(["replace (delete", "create)"]) == Replace1
    ensures SummarizeActions(["replace (delete, create)"]) == Replace1
    ensures BucketOf(SummarizeActions(["replace (delete", "create)"])) == Replaces
    ensures ActionSymbol(SummarizeActions(["replace (delete", "create)"])) == "-/+"
  {
    var xs := ["replace (delete", "create)"];
    assert Join(xs, ", ") == xs[0] + ", " + Join(xs[1..], ", ");
    assert xs[1..] == ["create)"];
  }

  /** How many of `changes` land in bucket `b`. */
  function CountIn(changes: seq<ResourceChange>, b: Bucket): nat
    decreases |changes|
  {
    if changes == [] then 0
    else
      var last := changes[|changes| - 1];
      CountIn(changes[..|changes| - 1], b) + (if BucketOf(SummarizeActions(last.actions)) == b then 1 else 0)
  }

  datatype Tally = Tally(adds: nat, updates: nat, destroys: nat, replacements: nat, noops: nat)

  function Total(t: Tally): nat {
    t.adds + t.updates + t.destroys + t.replacements + t.noops
  }

  /** The tally after counting one more change in bucket `b`. */
  function Bump(t: Tally, b: Bucket): Tally {
    match b
    case Adds => t.(adds := t.adds + 1)
    case Updates => t.(updates := t.updates + 1)
    case Destroys => t.(destroys := t.destroys + 1)
    case Replaces => t.(replacements := t.replacements + 1)
    case NoOps => t.(noops := t.noops + 1)
    case Uncounted => t
  }

  /** `t` holds the counts of `changes`, and with the uncounted ones they add up to all. */
  predicate Counts(t: Tally, changes: seq<ResourceChange>) {
    && t.adds == CountIn(changes, Adds) && t.updates == CountIn(changes, Updates)
    && t.destroys == CountIn(changes, Destroys) && t.replacements == CountIn(changes, Replaces)
    && t.noops == CountIn(changes, NoOps)
    && Total(t) + CountIn(changes, Uncounted) == |changes|
  }

  lemma BumpCounts(changes: seq<ResourceChange>, i: nat, t: Tally)
    requires i < |changes| && Counts(t, changes[..i])
    ensures Counts(Bump(t, BucketOf(SummarizeActions(changes[i].actions))), changes[..i + 1])
  {
    var c := BucketOf(SummarizeActions(changes[i].actions));
    forall b ensures CountIn(changes[..i + 1], b) == CountIn(changes[..i], b) + (if c == b then 1 else 0) {
      CountInSnoc(changes, i, b);
    }
    BumpStep(t, changes[..i], changes[..i + 1], c);
  }

  /** Bumping the bucket the next change lands in keeps the tally exact. */
  lemma BumpStep(t: Tally, before: seq<ResourceChange>, after: seq<ResourceChange>, c: Bucket)
    requires Counts(t, before) && |after| == |before| + 1
    requires forall b :: CountIn(after, b) == CountIn(before, b) + (if c == b then 1 else 0)
    ensures Counts(Bump(t, c), after)
  {
    assert CountIn(after, Adds) == CountIn(before, Adds) + (if c == Adds then 1 else 0);
    assert CountIn(after, Updates) == CountIn(before, Updates) + (if c == Updates then 1 else 0);
    assert CountIn(after, Destroys) == CountIn(before, Destroys) + (if c == Destroys then 1 else 0);
    assert CountIn(after, Replaces) == CountIn(before, Replaces) + (if c == Replaces then 1 else 0);
    assert CountIn(after, NoOps) == CountIn(before, NoOps) + (if c == NoOps then 1 else 0);
    assert CountIn(after, Uncounted) == CountIn(before, Uncounted) + (if c == Uncounted then 1 else 0);
  }

  /** `countActions`: one pass over the changes, bumping at most one counter each. Each
      counter is the number of changes whose summary lands in its bucket (a read counts
      as a no-op), and a summary the switch does not know is counted nowhere, so the
      counters never add up to more than the number of changes. */
  method CountActions(changes: seq<ResourceChange>) returns (t: Tally)
    ensures t.adds == CountIn(changes, Adds) && t.updates == CountIn(changes, Updates)
    ensures t.destroys == CountIn(changes, Destroys) && t.replacements == CountIn(changes, Replaces)
    ensures t.noops == CountIn(changes, NoOps)
    ensures Total(t) + CountIn(changes, Uncounted) == |changes|
  {
    t := Tally(0, 0, 0, 0, 0);
    var i := 0;
    while i < |changes|
      invariant i <= |changes|
      invariant Counts(t, changes[..i])
    {
      BumpCounts(changes, i, t);
      t := Bump(t, BucketOf(SummarizeActions(changes[i].actions)));
      i := i + 1;
    }
    assert changes[..i] == changes;
  }

  /** Extending the prefix by one change adds that change to its own bucket only. */
  lemma CountInSnoc(changes: seq<ResourceChange>, i: nat, b: Bucket)
    requires i < |changes|
    ensures CountIn(changes[..i + 1], b)
      == CountIn(changes[..i], b) + (if BucketOf(SummarizeActions(changes[i].actions)) == b then 1 else 0)
  {
    assert changes[..i + 1][..i] == changes[..i];
  }

  /** A change is counted as added, updated, deleted or left alone exactly when its
      action list is that single tag; reads and no-ops share the no-op counter. */
  lemma BucketOfSingleTags(actions: seq<string>)
    ensures BucketOf(SummarizeActions(actions)) == Adds <==> actions == ["create"]
    ensures BucketOf(SummarizeActions(actions)) == Updates <==> actions == ["update"]
    ensures BucketOf(SummarizeActions(actions)) == Destroys <==> actions == ["delete"]
    ensures BucketOf(SummarizeActions(actions)) == NoOps <==> actions == ["no-op"] || actions == ["read"]
  {
    NoSeparator("create");
    NoSeparator("update");
    NoSeparator("delete");
    NoSeparator("no-op");
    NoSeparator("read");
    SummaryIdentifiesSingleTag(actions, "create");
    SummaryIdentifiesSingleTag(actions, "update");
    SummaryIdentifiesSingleTag(actions, "delete");
    SummaryIdentifiesSingleTag(actions, "no-op");
    SummaryIdentifiesSingleTag(actions, "read");
  }

  lemma NoSeparator(t: string)
    requires forall i | 0 <= i < |t| :: t[i] != ','
    ensures !HasInfix(t, ", ")
  {
    forall i: nat ensures !InfixAt(t, ", ", i) {
      if i + 2 <= |t| {
        assert t[i..i + 2][0] == t[i];
      }
    }
  }

  /** The changes listed under "Resource Changes": those whose summary is neither
      "no-op" nor "read", in plan order. */
  function ActualChanges(changes: seq<ResourceChange>): (r: seq<ResourceChange>)
    ensures forall i | 0 <= i < |r| :: r[i] in changes
    ensures forall i | 0 <= i < |r| ::
      SummarizeActions(r[i].actions) != "no-op" && SummarizeActions(r[i].actions) != "read"
    decreases |changes|
  {
    if changes == [] then []
    else
      var last := changes[|changes| - 1];
      var a := SummarizeActions(last.actions);
      ActualChanges(changes[..|changes| - 1]) + (if a != "no-op" && a != "read" then [last] else [])
  }

  /** The listed changes and the "unchanged, not shown" count split the plan between
      them: every change is either listed or counted as a no-op, never both. */
  lemma {:induction false} ActualChangesAndNoOps(changes: seq<ResourceChange>)
    ensures |ActualChanges(changes)| + CountIn(changes, NoOps) == |changes|
    decreases |changes|
  {
    if changes != [] {
      ActualChangesAndNoOps(changes[..|changes| - 1]);
      NoOpBucket(SummarizeActions(changes[|changes| - 1].actions));
    }
  }

  lemma NoOpBucket(a: string)
    ensures BucketOf(a) == NoOps <==> a == "no-op" || a == "read"
  {
  }

  /** The "## Summary" line: adds, changes and destroys always, replacements only when
      there are any. */
  function SummaryLine(t: Tally): string {
    "\n## Summary: " + NatToString(t.adds) + " to add, " + NatToString(t.updates) + " to change, "
    + NatToString(t.destroys) + " to destroy"
    + (if t.replacements > 0 then ", " + NatToString(t.replacements) + " to replace" else "")
    + "\n"
  }

  /** The replacement clause ends the summary line exactly when something is replaced. */
  lemma SummaryLineMentionsReplaces(t: Tally)
    ensures var s := SummaryLine(t);
      |s| >= 12 && (s[|s| - 12..] == " to replace\n" <==> t.replacements > 0)
  {
    var s := SummaryLine(t);
    if t.replacements == 0 {
      assert s[|s| - 12..] == " to destroy\n";
      assert " to destroy\n"[4] != " to replace\n"[4];
    }
  }

  /** The header line of one resource entry. */
  function EntryHeader(rc: ResourceChange): string {
    var action := SummarizeActions(rc.actions);
    "### " + ActionSymbol(action) + " " + rc.address + " (" + action + ")\n"
  }

  /** The reason line, present only when the plan gives a reason. */
  function ReasonLine(rc: ResourceChange): string {
    if rc.actionReason != "" then "  *Reason: " + FormatActionReason(rc.actionReason) + "*\n" else ""
  }

  /** The diff block: fenced as `diff` when there is a diff, a blank line otherwise. */
  function DiffBlock(diff: string): string {
    if diff != "" then "\n```diff\n" + diff + "```\n\n" else "\n"
  }

  /** `writeResourceChange`: header, optional reason, then the attribute diff of the
      change's summarised action in a fenced block when it is not empty. */
  method WriteResourceChange(rc: ResourceChange) returns (r: string, ghost diff: string, ghost order: seq<string>)
    ensures IsAttributeDiff(rc.before, rc.after, SummarizeActions(rc.actions), order, diff)
    ensures r == EntryHeader(rc) + ReasonLine(rc) + DiffBlock(diff)
    ensures EntryHeader(rc) + ReasonLine(rc) <= r
    ensures EndsWithNewline(r)
  {
    var action := SummarizeActions(rc.actions);
    var d;
    d, order := BuildAttributeDiff(rc.before, rc.after, action);
    diff := d;
    r := EntryHeader(rc) + ReasonLine(rc) + DiffBlock(d);
  }

  /** `text` is how `writeResourceChange` may render `rc`, for some enumeration order of
      the maps it dumps. */
  ghost predicate RendersChange(rc: ResourceChange, text: string) {
    exists diff, order :: IsAttributeDiff(rc.before, rc.after, SummarizeActions(rc.actions), order, diff)
      && text == EntryHeader(rc) + ReasonLine(rc) + DiffBlock(diff)
  }

  const NoChangesPlanned: string := "\n## Resource Changes\n\nNo resource changes planned.\n"

  function ChangesHeading(n: nat): string {
    if n > 0 then "\n## Resource Changes (" + NatToString(n) + ")\n\n" else ""
  }

  function UnchangedLine(noops: nat): string {
    if noops > 0 then "\n*(" + NatToString(noops) + " resources unchanged, not shown)*\n" else ""
  }

  /** The loop that picks out the listed changes. */
  method CollectActualChanges(changes: seq<ResourceChange>) returns (actual: seq<ResourceChange>)
    ensures actual == ActualChanges(changes)
  {
    actual := [];
    var i := 0;
    while i < |changes|
      invariant i <= |changes|
      invariant actual == ActualChanges(changes[..i])
    {
      ActualChangesSnoc(changes, i);
      var a := SummarizeActions(changes[i].actions);
      if a != "no-op" && a != "read" {
        actual := actual + [changes[i]];
      }
      i := i + 1;
    }
    assert changes[..i] == changes;
  }

  lemma ActualChangesSnoc(changes: seq<ResourceChange>, i: nat)
    requires i < |changes|
    ensures var a := SummarizeActions(changes[i].actions);
      ActualChanges(changes[..i + 1])
      == ActualChanges(changes[..i]) + (if a != "no-op" && a != "read" then [changes[i]] else [])
  {
    assert changes[..i + 1][..i] == changes[..i];
  }

  /** One more entry extends the rendered body by exactly that entry. */
  lemma JoinStep(entries: seq<string>, text: string, body: string)
    requires body == Join(entries, "")
    ensures Join(entries + [text], "") == body + text
  {
    JoinSnoc(entries, text, "");
  }

  /** Renders each change in turn, one entry each, in order. */
  method RenderChanges(actual: seq<ResourceChange>) returns (body: string, ghost entries: seq<string>)
    ensures |entries| == |actual|
    ensures forall k | 0 <= k < |actual| :: RendersChange(actual[k], entries[k])
    ensures body == Join(entries, "")
    ensures body == "" <==> actual == []
    ensures actual != [] ==> EntryHeader(actual[0]) <= body
  {
    entries := [];
    body := "";
    var j := 0;
    while j < |actual|
      invariant j <= |actual|
      invariant |entries| == j
      invariant forall k | 0 <= k < j :: RendersChange(actual[k], entries[k])
      invariant body == Join(entries, "")
      invariant body == "" <==> j == 0
      invariant j > 0 ==> EntryHeader(actual[0]) <= body
    {
      var text, diff, order := WriteResourceChange(actual[j]);
      assert RendersChange(actual[j], text);
      ghost var next := entries + [text];
      JoinStep(entries, text, body);
      forall k | 0 <= k < j + 1 ensures RendersChange(actual[k], next[k]) {
        if k < j {
          assert next[k] == entries[k];
        }
      }
      entries := next;
      body := body + text;
      j := j + 1;
    }
  }

  /** The "Resource Changes" section: every change whose summary is neither a no-op nor a
      read gets its entry, in plan order, under a heading with their number; the no-op
      and read changes are only counted, on a closing line that appears when there are
      any. A plan without changes says so instead. */
  method ResourceChangesSection(changes: seq<ResourceChange>) returns (r: string, ghost entries: seq<string>)
    ensures changes == [] ==> r == NoChangesPlanned
    ensures |entries| == |ActualChanges(changes)|
    ensures forall i | 0 <= i < |entries| :: RendersChange(ActualChanges(changes)[i], entries[i])
    ensures changes != [] ==>
      r == ChangesHeading(|ActualChanges(changes)|) + Join(entries, "") + UnchangedLine(CountIn(changes, NoOps))
  {
    var actual := CollectActualChanges(changes);
    var body;
    body, entries := RenderChanges(actual);
    if changes == [] {
      r := NoChangesPlanned;
    } else {
      var t := CountActions(changes);
      r := ChangesHeading(|actual|) + body + UnchangedLine(t.noops);
    }
  }
}

=== FILE: string_order.dfy ===
/** Go's `<` on strings (byte-wise lexicographic order), the orderings of sequences it
    induces, the insertion sort of `sortStrings` and the canonical sorted key list of a
    set of keys. */
module StringOrder {

  /** `a < b` in Go: at the first differing position `a` has the smaller byte, or `a`
      is a proper prefix of `b`. (Dafny's own `<` on sequences means proper prefix only.) */
  predicate Less(a: string, b: string)
    decreases |a|
  {
    |b| > 0 && (|a| == 0 || a[0] < b[0] || (a[0] == b[0] && Less(a[1..], b[1..])))
  }

  predicate LessEq(a: string, b: string) {
    a == b || Less(a, b)
  }

  lemma {:induction false} LessIrreflexive(a: string)
    ensures !Less(a, a)
    decreases |a|
  {
    if |a| > 0 {
      LessIrreflexive(a[1..]);
    }
  }

  lemma {:induction false} LessTransitive(a: string, b: string, c: string)
    requires Less(a, b) && Less(b, c)
    ensures Less(a, c)
    decreases |a|
  {
    if |a| > 0 && a[0] == b[0] && b[0] == c[0] {
      LessTransitive(a[1..], b[1..], c[1..]);
    }
  }

  /** Any two strings are ordered one way or the other, or are equal. */
  lemma {:induction false} LessTotal(a: string, b: string)
    ensures Less(a, b) || a == b || Less(b, a)
    decreases |a|
  {
    if |a| > 0 && |b| > 0 && a[0] == b[0] {
      LessTotal(a[1..], b[1..]);
      if a[1..] == b[1..] {
        assert a == [a[0]] + a[1..] && b == [b[0]] + b[1..];
      }
    }
  }

  lemma LessAsymmetric(a: string, b: string)
    requires Less(a, b)
    ensures !Less(b, a)
  {
    if Less(b, a) {
      LessTransitive(a, b, a);
      LessIrreflexive(a);
    }
  }

  /** The order facts in the quantified form the sorting proofs use. */
  lemma LessIsStrictTotalOrder()
    ensures forall a :: !Less(a, a)
    ensures forall a, b, c | Less(a, b) && Less(b, c) :: Less(a, c)
    ensures forall a, b :: Less(a, b) || a == b || Less(b, a)
  {
    forall a ensures !Less(a, a) {
      LessIrreflexive(a);
    }
    forall a, b, c | Less(a, b) && Less(b, c) ensures Less(a, c) {
      LessTransitive(a, b, c);
    }
    forall a, b ensures Less(a, b) || a == b || Less(b, a) {
      LessTotal(a, b);
    }
  }

  /** Non-decreasing under `Less`. */
  predicate Sorted(s: seq<string>) {
    forall i, j | 0 <= i < j < |s| :: LessEq(s[i], s[j])
  }

  /** Strictly increasing under `Less`, hence without duplicates. */
  predicate StrictlySorted(s: seq<string>) {
    forall i, j | 0 <= i < j < |s| :: Less(s[i], s[j])
  }

  predicate Distinct<T(==)>(s: seq<T>) {
    forall i, j | 0 <= i < j < |s| :: s[i] != s[j]
  }

  /** `k` is the least element of `s`. */
  predicate IsLeast(k: string, s: set<string>) {
    k in s && forall y | y in s :: LessEq(k, y)
  }

  lemma {:induction false} LeastExists(s: set<string>)
    requires s != {}
    ensures exists k :: IsLeast(k, s)
    decreases |s|
  {
    var x :| x in s;
    if s == {x} {
      assert IsLeast(x, s);
    } else {
      LeastExists(s - {x});
      var m :| IsLeast(m, s - {x});
      LessTotal(m, x);
      if Less(x, m) {
        forall y | y in s ensures LessEq(x, y) {
          if y != x && y != m {
            assert y in s - {x};
            LessTransitive(x, m, y);
          }
        }
        assert IsLeast(x, s);
      } else {
        assert IsLeast(m, s);
      }
    }
  }

  lemma LeastUnique(s: set<string>)
    ensures forall k, k' | IsLeast(k, s) && IsLeast(k', s) :: k == k'
  {
    forall k, k' | IsLeast(k, s) && IsLeast(k', s) ensures k == k' {
      if k != k' {
        LessAsymmetric(k, k');
      }
    }
  }

  /** The keys of `s` in increasing order: the order `mergeKeys` produces and the order
      in which `encoding/json` writes the members of a map. */
  function SortedKeys(s: set<string>): (r: seq<string>)
    ensures StrictlySorted(r)
    ensures |r| == |s|
    ensures forall k :: k in r <==> k in s
    decreases |s|
  {
    if s == {} then []
    else
      LeastExists(s);
      LeastUnique(s);
      var k :| IsLeast(k, s);
      var rest := SortedKeys(s - {k});
      assert forall y | y in rest :: Less(k, y);
      [k] + rest
  }

  /** A strictly increasing sequence is determined by its elements. */
  lemma {:induction false} StrictlySortedUnique(a: seq<string>, b: seq<string>)
    requires StrictlySorted(a) && StrictlySorted(b)
    requires forall x :: x in a <==> x in b
    ensures a == b
    decreases |a|
  {
    if a == [] && b != [] {
      HeadIn(b);
      assert false;
    }
    if a != [] {
      assert b != [] by { assert a[0] in b; }
      LessIsStrictTotalOrder();
      assert a[0] == b[0] by {
        assert a[0] in b && b[0] in a;
      }
      forall x ensures x in a[1..] <==> x in b[1..] {
        if x in a[1..] {
          assert x in b && x != b[0];
        }
        if x in b[1..] {
          assert x in a && x != a[0];
        }
      }
      StrictlySortedUnique(a[1..], b[1..]);
      assert a == [a[0]] + a[1..] && b == [b[0]] + b[1..];
    }
  }

  lemma HeadIn(b: seq<string>)
    requires b != []
    ensures b[0] in b
  {
  }

  /** Sorting a set's enumeration in any way that leaves it strictly increasing gives
      `SortedKeys`. */
  lemma SortedKeysCharacterization(s: set<string>, r: seq<string>)
    requires StrictlySorted(r) && forall k :: k in r <==> k in s
    ensures r == SortedKeys(s)
  {
    StrictlySortedUnique(r, SortedKeys(s));
  }

  /** `sortStrings`: insertion sort, moving each element left by adjacent swaps while
      it is smaller than its left neighbour. The result is sorted and a permutation of
      the input. */
  method SortStrings(s: seq<string>) returns (r: seq<string>)
    ensures Sorted(r)
    ensures multiset(r) == multiset(s)
  {
    var a := new string[|s|](k requires 0 <= k < |s| => s[k]);
    assert a[..] == s;
    var i := 1;
    while i < a.Length
      invariant a.Length == 0 || 1 <= i <= a.Length
      invariant multiset(a[..]) == multiset(s)
      invariant forall p, q | 0 <= p < q < i && q < a.Length :: LessEq(a[p], a[q])
    {
      Insert(a, i);
      i := i + 1;
    }
    r := a[..];
  }

  /** One pass of the inner loop: with `a[..i]` sorted, sink `a[i]` to its place so that
      `a[..i + 1]` is sorted. */
  method Insert(a: array<string>, i: nat)
    requires 1 <= i < a.Length
    requires forall p, q | 0 <= p < q < i :: LessEq(a[p], a[q])
    modifies a
    ensures multiset(a[..]) == old(multiset(a[..]))
    ensures forall p, q | 0 <= p < q <= i :: LessEq(a[p], a[q])
  {
    var j := i;
    while j > 0 && Less(a[j], a[j - 1])
      invariant 0 <= j <= i
      invariant multiset(a[..]) == old(multiset(a[..]))
      invariant Sinking(a[..], i, j)
    {
      ghost var before := a[..];
      a[j], a[j - 1] := a[j - 1], a[j];
      assert a[..] == Swap(before, j - 1, j);
      SinkStep(before, i, j);
      j := j - 1;
    }
    SinkDone(a[..], i, j);
  }

  function Swap(x: seq<string>, p: nat, q: nat): (y: seq<string>)
    requires p < |x| && q < |x|
    ensures multiset(y) == multiset(x)
  {
    x[p := x[q]][q := x[p]]
  }

  /** The inner loop's invariant: `x[..i + 1]` is sorted apart from the element at `j`,
      which is smaller than everything to its right. */
  predicate Sinking(x: seq<string>, i: nat, j: nat)
    requires j <= i < |x|
  {
    && (forall p, q | 0 <= p < q <= i && p != j && q != j :: LessEq(x[p], x[q]))
    && (forall q | j < q <= i :: Less(x[j], x[q]))
  }

  lemma SinkStep(x: seq<string>, i: nat, j: nat)
    requires 0 < j <= i < |x| && Sinking(x, i, j) && Less(x[j], x[j - 1])
    ensures Sinking(Swap(x, j - 1, j), i, j - 1)
  {
  }

  lemma SinkDone(x: seq<string>, i: nat, j: nat)
    requires j <= i < |x| && Sinking(x, i, j) && (j == 0 || !Less(x[j], x[j - 1]))
    ensures forall p, q | 0 <= p < q <= i :: LessEq(x[p], x[q])
  {
    if j > 0 {
      LessTotal(x[j], x[j - 1]);
      forall p | 0 <= p < j ensures LessEq(x[p], x[j]) {
        if p < j - 1 && x[p] != x[j - 1] && x[j - 1] != x[j] {
          LessTransitive(x[p], x[j - 1], x[j]);
        }
      }
    }
  }

  lemma {:induction false} DistinctMultiplicity<T>(s: seq<T>)
    requires Distinct(s)
    ensures forall x :: multiset(s)[x] <= 1
    decreases |s|
  {
    if s != [] {
      assert Distinct(s[1..]);
      DistinctMultiplicity(s[1..]);
      assert s == [s[0]] + s[1..];
      assert s[0] !in s[1..];
    }
  }

  /** A sorted permutation of a sequence without duplicates is strictly increasing. */
  lemma SortedDistinctIsStrict(r: seq<string>, s: seq<string>)
    requires Sorted(r) && multiset(r) == multiset(s) && Distinct(s)
    ensures StrictlySorted(r)
  {
    DistinctMultiplicity(s);
    forall p, q | 0 <= p < q < |r| ensures Less(r[p], r[q]) {
      NoRepeat(r, p, q);
    }
  }

  lemma NoRepeat(r: seq<string>, p: nat, q: nat)
    requires p < q < |r|
    requires forall x :: multiset(r)[x] <= 1
    ensures r[p] != r[q]
  {
    assert r == r[..q] + [r[q]] + r[q + 1..];
    assert r[p] in r[..q];
    assert multiset(r)[r[q]] >= multiset(r[..q])[r[q]] + 1;
  }
}

=== FILE: text.dfy ===
/** The string helpers of Go's `strings` and `fmt` packages that the handlers lean on,
    restricted to ASCII text: white-space trimming, lower-casing, splitting and joining,
    repetition and decimal rendering of integers. */
module Text {

  /** Go's ASCII white space: tab, newline, vertical tab, form feed, carriage return, space. */
  predicate IsSpace(c: char) {
    (9 <= c as int <= 13) || c == ' '
  }

  predicate AllSpace(s: string) {
    forall i | 0 <= i < |s| :: IsSpace(s[i])
  }

  /** Neither end of `s` is white space. */
  predicate Trimmed(s: string) {
    s == [] || (!IsSpace(s[0]) && !IsSpace(s[|s| - 1]))
  }

  /** The end of the run of white space that starts at `i`. */
  function SpanSpace(s: string, i: nat): (k: nat)
    requires i <= |s|
    ensures i <= k <= |s|
    ensures forall m | i <= m < k :: IsSpace(s[m])
    ensures k == |s| || !IsSpace(s[k])
    decreases |s| - i
  {
    if i < |s| && IsSpace(s[i]) then SpanSpace(s, i + 1) else i
  }

  /** The start of the run of white space that ends at `j`, scanning back no further than `lo`. */
  function BackSpace(s: string, lo: nat, j: nat): (k: nat)
    requires lo <= j <= |s|
    ensures lo <= k <= j
    ensures forall m | k <= m < j :: IsSpace(s[m])
    ensures k == lo || !IsSpace(s[k - 1])
    decreases j
  {
    if lo < j && IsSpace(s[j - 1]) then BackSpace(s, lo, j - 1) else j
  }

  /** Where the text `TrimSpace` keeps begins: the length of the leading white space. */
  function TrimStart(s: string): (i: nat)
    ensures i <= |s| && AllSpace(s[..i])
    ensures i == |s| || !IsSpace(s[i])
  {
    var i := SpanSpace(s, 0);
    assert forall m | 0 <= m < i :: s[..i][m] == s[m];
    i
  }

  /** `strings.TrimSpace` on ASCII text: the infix between the leading and the trailing
      white space, which itself has white space at neither end. */
  function TrimSpace(s: string): (r: string)
    ensures Trimmed(r)
    ensures var i := TrimStart(s);
      i + |r| <= |s| && r == s[i..i + |r|] && AllSpace(s[..i]) && AllSpace(s[i + |r|..])
  {
    var i := TrimStart(s);
    var j := BackSpace(s, i, |s|);
    assert forall m | 0 <= m < |s| - j :: s[j..][m] == s[j + m];
    assert i < j ==> s[i..j][0] == s[i] && s[i..j][j - i - 1] == s[j - 1];
    s[i..j]
  }

  /** Trimming pins down the infix: surrounded only by white space and with no white
      space at its own ends, a non-empty infix is exactly what `TrimSpace` returns. */
  lemma TrimSpaceOfPadded(s: string, i: nat, j: nat)
    requires i < j <= |s|
    requires AllSpace(s[..i]) && AllSpace(s[j..]) && Trimmed(s[i..j])
    ensures TrimSpace(s) == s[i..j]
  {
    assert s[i..j][0] == s[i] && s[i..j][j - i - 1] == s[j - 1];
    forall m | 0 <= m < i
      ensures IsSpace(s[m])
    {
      assert s[..i][m] == s[m];
    }
    forall m | j <= m < |s|
      ensures IsSpace(s[m])
    {
      assert s[j..][m - j] == s[m];
    }
    assert TrimStart(s) == i;
  }

  /** Text with nothing to trim comes back unchanged. */
  lemma TrimSpaceOfTrimmed(s: string)
    requires Trimmed(s)
    ensures TrimSpace(s) == s
  {
    if s != [] {
      assert s[..0] == [] && s[|s|..] == [] && s[0..|s|] == s;
      TrimSpaceOfPadded(s, 0, |s|);
    }
  }

  /** ASCII `unicode.ToLower`. */
  function LowerChar(c: char): (r: char)
  {
    if 'A' <= c <= 'Z' then (c as int + 32) as char else c
  }

  /** `strings.ToLower` on ASCII text, character by character. */
  function ToLower(s: string): (r: string)
    ensures |r| == |s|
    ensures forall i | 0 <= i < |s| :: r[i] == LowerChar(s[i])
  {
    seq(|s|, i requires 0 <= i < |s| => LowerChar(s[i]))
  }

  /** `strings.Join`. */
  function Join(xs: seq<string>, sep: string): string
    decreases |xs|
  {
    if |xs| == 0 then "" else if |xs| == 1 then xs[0] else xs[0] + sep + Join(xs[1..], sep)
  }

  /** Appending a piece extends the join by the separator and that piece. */
  lemma {:induction false} JoinSnoc(xs: seq<string>, x: string, sep: string)
    ensures Join(xs + [x], sep) == if xs == [] then x else Join(xs, sep) + sep + x
    decreases |xs|
  {
    if xs == [] {
      assert xs + [x] == [x];
    } else if |xs| == 1 {
      assert xs + [x] == [xs[0], x];
      assert [xs[0], x][1..] == [x];
    } else {
      assert (xs + [x])[1..] == xs[1..] + [x];
      JoinSnoc(xs[1..], x, sep);
    }
  }

  /** Number of occurrences of `c` in `s`. */
  function Occurrences(s: string, c: char): nat
    decreases |s|
  {
    if s == [] then 0 else (if s[0] == c then 1 else 0) + Occurrences(s[1..], c)
  }

  /** Counting occurrences distributes over concatenation. */
  lemma {:induction false} OccurrencesAppend(a: string, b: string, c: char)
    ensures Occurrences(a + b, c) == Occurrences(a, c) + Occurrences(b, c)
    decreases |a|
  {
    if a != [] {
      assert (a + b)[0] == a[0] && (a + b)[1..] == a[1..] + b;
      assert Occurrences(a + b, c) == (if a[0] == c then 1 else 0) + Occurrences(a[1..] + b, c);
      OccurrencesAppend(a[1..], b, c);
    } else {
      assert a + b == b;
    }
  }

  /** Text without `c` has no occurrence of it, and the count is at most the length. */
  lemma {:induction false} NoOccurrences(s: string, c: char)
    requires c !in s
    ensures Occurrences(s, c) == 0
    decreases |s|
  {
    if s != [] {
      assert c !in s[1..];
      NoOccurrences(s[1..], c);
    }
  }

  /** `strings.Split` on a one-character separator: one more piece than there are
      separators (the empty string gives one empty piece), no piece holds the separator,
      and joining the pieces back with it gives `s` again. */
  function Split(s: string, c: char): (r: seq<string>)
    ensures |r| == Occurrences(s, c) + 1
    ensures forall i | 0 <= i < |r| :: c !in r[i]
    ensures Join(r, [c]) == s
    decreases |s|
  {
    if s == [] then [""]
    else if s[0] == c then
      var rest := Split(s[1..], c);
      assert [c] + s[1..] == s;
      [""] + rest
    else
      var rest := Split(s[1..], c);
      var r := [[s[0]] + rest[0]] + rest[1..];
      assert r[1..] == rest[1..];
      assert forall i | 1 <= i < |r| :: r[i] == rest[i];
      assert [s[0]] + s[1..] == s;
      r
  }

  /** The converse of `Split`'s round trip: separator-free pieces joined with the
      separator split back into the same pieces. */
  lemma {:induction false} SplitJoin(xs: seq<string>, c: char)
    requires |xs| >= 1
    requires forall i | 0 <= i < |xs| :: c !in xs[i]
    ensures Split(Join(xs, [c]), c) == xs
    decreases |xs|
  {
    if |xs| == 1 {
      SplitWithout(xs[0], c);
    } else {
      SplitJoin(xs[1..], c);
      SplitAfter(xs[0], Join(xs[1..], [c]), c);
      assert [xs[0]] + xs[1..] == xs;
    }
  }

  lemma {:induction false} SplitWithout(a: string, c: char)
    requires c !in a
    ensures Split(a, c) == [a]
    decreases |a|
  {
    if a != [] {
      assert c !in a[1..];
      SplitWithout(a[1..], c);
      assert [a[0]] + a[1..] == a;
    }
  }

  lemma {:induction false} SplitAfter(a: string, b: string, c: char)
    requires c !in a
    ensures Split(a + [c] + b, c) == [a] + Split(b, c)
    decreases |a|
  {
    var s := a + [c] + b;
    if a == [] {
      assert s[0] == c && s[1..] == b;
    } else {
      assert s[0] == a[0] && s[1..] == a[1..] + [c] + b;
      assert c !in a[1..];
      SplitAfter(a[1..], b, c);
      assert [a[0]] + a[1..] == a;
    }
  }

  /** `strings.Repeat`. */
  function Repeat(s: string, n: nat): (r: string)
    ensures |r| == n * |s|
    decreases n
  {
    if n == 0 then "" else s + Repeat(s, n - 1)
  }

  /** `strings.HasSuffix(s, "\n")`. */
  predicate EndsWithNewline(s: string) {
    |s| > 0 && s[|s| - 1] == '\n'
  }

  /** Text ready for a closing fence on its own line: a newline is added only when the
      text does not already end with one. */
  function EnsureNewline(s: string): (r: string)
    ensures EndsWithNewline(r)
    ensures r == s || r == s + "\n"
    ensures r == s <==> EndsWithNewline(s)
  {
    if EndsWithNewline(s) then s else s + "\n"
  }

  predicate IsDigit(c: char) {
    '0' <= c <= '9'
  }

  predicate AllDigits(s: string) {
    forall i | 0 <= i < |s| :: IsDigit(s[i])
  }

  function DigitChar(d: nat): (c: char)
    requires d < 10
  {
    ('0' as int + d) as char
  }

  /** `%d` of a non-negative integer: its decimal digits, most significant first. */
  function NatToString(n: nat): (r: string)
    ensures |r| >= 1 && AllDigits(r)
    decreases n
  {
    if n < 10 then [DigitChar(n)] else NatToString(n / 10) + [DigitChar(n % 10)]
  }

  /** The value of a run of decimal digits. */
  function DigitsValue(s: string): nat
    requires AllDigits(s)
    decreases |s|
  {
    if s == [] then 0 else DigitsValue(s[..|s| - 1]) * 10 + (s[|s| - 1] as int - '0' as int)
  }

  /** Decimal rendering loses nothing: reading the digits back gives the number. */
  lemma {:induction false} NatToStringRoundTrip(n: nat)
    ensures DigitsValue(NatToString(n)) == n
    decreases n
  {
    var r := NatToString(n);
    if n >= 10 {
      NatToStringRoundTrip(n / 10);
      assert r[..|r| - 1] == NatToString(n / 10);
    }
  }

  /** `%d` of an integer: a minus sign before the digits of a negative one. */
  function IntToString(n: int): (r: string)
  {
    if n < 0 then "-" + NatToString(-n) else NatToString(n)
  }
}

=== FILE: values.dfy ===
/** The JSON-like value tree the plan's `before`/`after` snapshots and the state outputs
    decode into, its canonical JSON encoding, the equality `valuesEqual` derives from
    it, and the bounded display form `formatValue`. */
module Values {
  import opened Text
  import opened StringOrder

  /** A decoded JSON value. Every JSON number arrives in Go as a float64; the model keeps
      only the integral ones, which `formatValue` prints with `%d`. */
  datatype Value =
    | Null
    | Bool(b: bool)
    | Num(n: int)
    | Str(s: string)
    | Arr(items: seq<Value>)
    | Obj(fields: map<string, Value>)

  /** The escape of one character inside a quoted string: `"` and `\` get a backslash. */
  function EscapeChar(c: char): (r: string)
  {
    if c == '"' then ['\\', '"'] else if c == '\\' then ['\\', '\\'] else [c]
  }

  /** Text holding neither `"` nor `\`, which quoting copies unchanged. */
  predicate PlainText(s: string) {
    forall i | 0 <= i < |s| :: s[i] != '"' && s[i] != '\\'
  }

  function Escape(s: string): (r: string)
    ensures |s| <= |r| <= 2 * |s|
    decreases |s|
  {
    if s == [] then "" else EscapeChar(s[0]) + Escape(s[1..])
  }

  /** A quoted string literal, as both `%q` and `encoding/json` write printable ASCII
      text without HTML-special characters. */
  function Quote(s: string): (r: string)
    ensures 2 + |s| <= |r| <= 2 + 2 * |s|
    ensures r[0] == '"' && r[|r| - 1] == '"'
  {
    ['"'] + Escape(s) + ['"']
  }

  /** Escaping leaves plain text unchanged, so its quoting adds just the two quotes. */
  lemma {:induction false} EscapePlain(s: string)
    ensures PlainText(s) ==> Escape(s) == s && |Quote(s)| == 2 + |s|
    decreases |s|
  {
    if s != [] && PlainText(s) {
      assert PlainText(s[1..]) by {
        forall i | 0 <= i < |s[1..]| ensures s[1..][i] != '"' && s[1..][i] != '\\' {
          assert s[1..][i] == s[i + 1];
        }
      }
      EscapePlain(s[1..]);
    }
  }

  /** Reads back escaped text: a backslash takes the next character literally. */
  function Unescape(e: string): string
    decreases |e|
  {
    if e == [] then ""
    else if e[0] == '\\' && |e| >= 2 then [e[1]] + Unescape(e[2..])
    else [e[0]] + Unescape(e[1..])
  }

  /** The text between the outer quotes of a literal, unescaped. */
  function Unquote(q: string): string
    requires |q| >= 2
  {
    Unescape(q[1..|q| - 1])
  }

  lemma {:induction false} UnescapeEscape(s: string)
    ensures Unescape(Escape(s)) == s
    decreases |s|
  {
    if s != [] {
      UnescapeEscape(s[1..]);
      var e := Escape(s);
      assert e == EscapeChar(s[0]) + Escape(s[1..]);
      if s[0] == '"' || s[0] == '\\' {
        assert e[2..] == Escape(s[1..]);
      } else {
        assert e[1..] == Escape(s[1..]);
      }
      assert s == [s[0]] + s[1..];
    }
  }

  /** Quoting loses nothing: the literal reads back as the original text. */
  lemma QuoteRoundTrip(s: string)
    ensures Unquote(Quote(s)) == s
  {
    var q := Quote(s);
    assert q[1..|q| - 1] == Escape(s);
    UnescapeEscape(s);
  }

  /** `json.Marshal`: compact canonical JSON, object members in increasing key order. */
  function Encode(v: Value): (r: string)
    ensures |r| > 0
    decreases v, 1
  {
    match v
    case Null => "null"
    case Bool(b) => if b then "true" else "false"
    case Num(n) => IntToString(n)
    case Str(s) => Quote(s)
    case Arr(items) => "[" + Join(EncodeItems(v, items), ",") + "]"
    case Obj(m) => "{" + Join(EncodeMembers(v, m, SortedKeys(m.Keys)), ",") + "}"
  }

  function EncodeItems(parent: Value, xs: seq<Value>): (r: seq<string>)
    requires forall i | 0 <= i < |xs| :: xs[i] < parent
    ensures |r| == |xs|
    ensures forall i | 0 <= i < |xs| :: r[i] == Encode(xs[i])
    decreases parent, 0, |xs|
  {
    if xs == [] then [] else [Encode(xs[0])] + EncodeItems(parent, xs[1..])
  }

  /** One `"key":value` member per key of `keys`, in that order. */
  function EncodeMembers(parent: Value, m: map<string, Value>, keys: seq<string>): (r: seq<string>)
    requires parent == Obj(m) && forall i | 0 <= i < |keys| :: keys[i] in m
    ensures |r| == |keys|
    ensures forall i | 0 <= i < |keys| :: r[i] == Quote(keys[i]) + ":" + Encode(m[keys[i]])
    decreases parent, 0, |keys|
  {
    if keys == [] then []
    else [Quote(keys[0]) + ":" + Encode(m[keys[0]])] + EncodeMembers(parent, m, keys[1..])
  }

  /** `valuesEqual`: two values are equal when their JSON encodings are the same text. */
  predicate ValuesEqual(a: Value, b: Value) {
    Encode(a) == Encode(b)
  }

  /** Longest string or joined list shown in full. */
  const MaxShown: nat := 200

  /** Appended to a quoted string cut down to its first `MaxShown` characters. */
  const TruncatedMarker: string := "... (truncated)"

  /** The collapsed form of a non-empty list. */
  function ItemsCount(n: nat): string {
    "[..." + NatToString(n) + " items]"
  }

  /** The collapsed form of a non-empty map. */
  function KeysCount(n: nat): string {
    "{..." + NatToString(n) + " keys}"
  }

  /** `formatValue(val, depth)`: the one-line display of a value inside a diff line.
      Strings are quoted and cut at 200 characters; lists and maps below depth 3 are shown
      in full unless their shown text passes 200 characters, otherwise by their size. */
  function FormatValue(v: Value, depth: nat): (r: string)
    decreases v
  {
    match v
    case Null => "null"
    case Str(s) =>
      if |s| > MaxShown then Quote(s[..MaxShown]) + TruncatedMarker else Quote(s)
    case Num(n) => IntToString(n)
    case Bool(b) => if b then "true" else "false"
    case Arr(items) =>
      if |items| == 0 then "[]"
      else if depth > 2 then ItemsCount(|items|)
      else
        var joined := Join(FormatItems(v, items, depth + 1), ", ");
        if |joined| > MaxShown then ItemsCount(|items|) else "[" + joined + "]"
    case Obj(m) =>
      if |m| == 0 then "{}"
      else if depth > 2 then KeysCount(|m|)
      else
        var s := Encode(v);
        if |s| > MaxShown then KeysCount(|m|) else s
  }

  function FormatItems(parent: Value, xs: seq<Value>, depth: nat): (r: seq<string>)
    requires forall i | 0 <= i < |xs| :: xs[i] < parent
    ensures |r| == |xs|
    ensures forall i | 0 <= i < |xs| :: r[i] == FormatValue(xs[i], depth)
    decreases parent, |xs|
  {
    if xs == [] then [] else [FormatValue(xs[0], depth)] + FormatItems(parent, xs[1..], depth)
  }

  /** A string is shown whole, between double quotes, when it has at most 200 characters;
      a longer one shows exactly its first 200 characters between double quotes, followed
      by the truncation marker. Either way the
      display is at most 417 characters long (217 when nothing needs escaping). */
  lemma FormatStringShowsText(s: string, depth: nat)
    ensures var r := FormatValue(Str(s), depth);
      && |r| <= 2 + 2 * MaxShown + |TruncatedMarker|
      && (PlainText(s) ==> |r| <= 2 + MaxShown + |TruncatedMarker|)
      && |r| >= 2 && r[0] == '"'
      && (|s| <= MaxShown ==> r[|r| - 1] == '"' && Unquote(r) == s)
      && (|s| > MaxShown ==>
            |r| > |TruncatedMarker| + 2
            && r[|r| - |TruncatedMarker| - 1] == '"'
            && r[|r| - |TruncatedMarker|..] == TruncatedMarker
            && Unquote(r[..|r| - |TruncatedMarker|]) == s[..MaxShown])
  {
    var r := FormatValue(Str(s), depth);
    if |s| > MaxShown {
      var q := Quote(s[..MaxShown]);
      assert r == q + TruncatedMarker;
      assert r[..|r| - |TruncatedMarker|] == q;
      assert r[|r| - |TruncatedMarker| - 1] == q[|q| - 1];
      assert r[|r| - |TruncatedMarker|..] == TruncatedMarker;
      QuoteRoundTrip(s[..MaxShown]);
      assert PlainText(s) ==> PlainText(s[..MaxShown]);
      EscapePlain(s[..MaxShown]);
    } else {
      QuoteRoundTrip(s);
      EscapePlain(s);
    }
  }

  /** Past depth 2 a non-empty list or map is shown by its size alone: two lists, or two
      maps, of the same non-empty size look the same there, whatever they hold. */
  lemma FormatDeepCollapse(a: Value, b: Value, depth: nat)
    requires depth > 2
    requires (a.Arr? && b.Arr? && |a.items| == |b.items| > 0)
          || (a.Obj? && b.Obj? && |a.fields| == |b.fields| > 0)
    ensures FormatValue(a, depth) == FormatValue(b, depth)
    ensures a.Arr? ==> FormatValue(a, depth) == ItemsCount(|a.items|)
    ensures a.Obj? ==> FormatValue(a, depth) == KeysCount(|a.fields|)
  {
  }

  /** An empty list or map is shown as `[]` or `{}` at every depth. */
  lemma FormatEmptyCollections(depth: nat)
    ensures FormatValue(Arr([]), depth) == "[]"
    ensures FormatValue(Obj(map[]), depth) == "{}"
  {
  }

  /** A list or map is shown either by its size or in at most 202 characters; a map shown
      in full is its canonical JSON encoding, and a list shown in full is its items'
      displays, one level deeper, between brackets. Below depth 3 a non-empty collection
      is shown in full exactly when that text (the joined items, or the encoding) has at
      most 200 characters, and by its size otherwise. */
  lemma FormatCollectionBounded(v: Value, depth: nat)
    requires v.Arr? || v.Obj?
    ensures var r := FormatValue(v, depth);
      || (v.Arr? && r == ItemsCount(|v.items|))
      || (v.Obj? && r == KeysCount(|v.fields|))
      || |r| <= MaxShown + 2
    ensures var r := FormatValue(v, depth);
      v.Obj? && r != KeysCount(|v.fields|) ==> r == Encode(v) || v.fields == map[]
    ensures var r := FormatValue(v, depth);
      v.Arr? && v.items != [] && r != ItemsCount(|v.items|) ==>
        depth <= 2 && r == "[" + Join(FormatItems(v, v.items, depth + 1), ", ") + "]"
    ensures v.Arr? && v.items != [] && depth <= 2 ==>
      var joined := Join(FormatItems(v, v.items, depth + 1), ", ");
      && (|joined| <= MaxShown ==> FormatValue(v, depth) == "[" + joined + "]")
      && (|joined| > MaxShown ==> FormatValue(v, depth) == ItemsCount(|v.items|))
    ensures v.Obj? && v.fields != map[] && depth <= 2 ==>
      && (|Encode(v)| <= MaxShown ==> FormatValue(v, depth) == Encode(v))
      && (|Encode(v)| > MaxShown ==> FormatValue(v, depth) == KeysCount(|v.fields|))
  {
  }

  /** Null, booleans, numbers and strings are shown the same way at every depth. */
  lemma FormatScalarIgnoresDepth(v: Value, d1: nat, d2: nat)
    requires !v.Arr? && !v.Obj?
    ensures FormatValue(v, d1) == FormatValue(v, d2)
  {
  }
}

=== FILE: wrappers.dfy ===
/** Option and Result, the two failure-carrying shapes the model needs. */
module Wrappers {

  datatype Option<+T> = None | Some(value: T)

  /** Either a value or an error; the handlers' early `return ToolError(...)` paths
      become `Failure`. */
  datatype Result<+R, +E> = Success(value: R) | Failure(error: E)
}
